=== FILE: README.md ===
# Account lifecycle of the tourism user directory, in Dafny

This project models the account lifecycle of a REST backend for tourists
and agencies. Users receive a six-digit confirmation code by email, verify
it, register with a profile and a password, log in for a bearer token, and
read their profile behind a token gate. The project also models the keyed
document stores for users, document types and attachments. Every handler
is a pure transition over immutable collections. It returns a `Result`, or
a `Step` when the state changes even though the handler reports failure.

- `Base`: `Option`, `Result`, the error kinds, truthiness, and the
  schema's "required" test.
- `Store`: a collection maps ids to documents and keeps a counter for the
  next id. Ids grow with insertion, so id order stands in for the
  database's natural order.
- `UserModel`: the user document, its defaults and required-field check,
  the agency and tourist side documents, and `findOne` (the first document
  a filter matches).
- `Crypto`: bcrypt and JSON Web Token signing (RFC 7519) as supplied
  functions. `Sound` holds the only facts the proofs use about them.
- `Helpers`, `UserVerify`, `AuthService`, `UserController`,
  `DocumentTypes`, `DocAttachment`: one module per source file.
- `LegacyAuthApi`: the earlier top-level revision. Its confirmation step
  sets the flag but keeps the code, and its app mounts the JSON body
  parser after the two confirmation routes.
- `Lifecycle`: properties that span several handlers.

Behaviour of the code that the model keeps, where one might expect otherwise:

- The schema does not keep emails unique, and the raw insert of
  `userController.js` does not check them. `EmailsUnique` is an invariant
  that the lifecycle handlers keep and the raw insert can break.
- Registration refuses every email that already has a document. The code
  upsert creates that document, so once a code has been issued for an
  email, the services registration always answers EmailExists for it.
- Registration does not require a confirmed account.
- A required String field must hold a non-empty string. A required
  Boolean, Date or ObjectId field must hold a value.
- `loginUser` signs with a configured secret. The file never imports that
  configuration, so the success path would throw as written. The model
  signs with a `secret` parameter, which is what the code intends.
- A found document with no stored hash makes `bcrypt.compare` throw. That
  gives a server error, not InvalidCredentials.

## Model

| member | source | states |
|---|---|---|
| `Store.List` | src/controllers/documentType.js:253 | lists every document exactly once, in increasing id order |
| `UserModel.FindOne` | src/controllers/userVerify.js:131 | returns the earliest matching document, or None exactly when no document matches |
| `UserModel.Blank` | src/models/userModels/generalInfoUser.js:10-16 | a document with only defaults is unconfirmed and inactive, and both role flags are false |
| `UserModel.Valid` | src/models/userModels/generalInfoUser.js:6-25 | the required-field check `save()` runs: names, last names, email, phone, code, location and document number are non-empty strings; both dates and both consents are present; a password is stored |
| `UserModel.AgencyValid` | src/models/userModels/agency.js:6 | an agency document passes its schema exactly when it has a non-empty name |
| `UserModel.EveryRequiredFieldIsNeeded` | src/models/userModels/generalInfoUser.js:6-25 | removing any one of the twelve required fields makes a valid document invalid; the document type is optional |
| `UserModel.ConsentValueIsFree` | src/models/userModels/generalInfoUser.js:23-24 | the consent flags must be present, but either boolean value passes |
| `UserModel.RoleFlagsIndependent` | src/models/userModels/generalInfoUser.js:15-16 | every combination of the two role flags passes the check |
| `UserModel.ClearedCodeIsInvalid` | src/models/userModels/generalInfoUser.js:13 | a document whose code has been cleared fails the required-field check |
| `UserModel.BlankIsInvalid` | src/models/userModels/generalInfoUser.js:5-26 | a document of defaults alone fails the check |
| `UserModel.FindOneUnique` | src/controllers/userVerify.js:58-59 | under unique emails, `findOne` by email returns the one document with that email |
| `Helpers.CodeFromDraws` | src/utils/helpers.js:3-7 | the code has six digit characters, and reading digit i back gives draw i |
| `Helpers.GenerateConfirmationCode` | src/utils/helpers.js:2-10 | the loop builds exactly the code that the draws spell out |
| `Helpers.EveryCodeIsProducible` | src/utils/helpers.js:3-9 | every six-digit string, leading zeros included, comes from some valid draws |
| `Helpers.CodeDeterminesDraws` | src/utils/helpers.js:5-6 | equal codes come from equal draws |
| `UserVerify.IssueCode` | src/controllers/userVerify.js:55-70 | for an email submitted as a string: after the upsert, the email's first document holds the new code. An existing document changes only in its code. A new email gets a document of defaults plus the email and code. A failed delivery is reported while the code stays stored |
| `UserVerify.IssueCodeAsWritten` | src/controllers/userVerify.js:53-62 | the submitted email is the upsert filter as it arrives: a string behaves as `IssueCode`; `{"$ne": null}` replaces the code of the first document holding any email, changing nothing else, or, with no such document, inserts one holding only the code |
| `UserVerify.SendConfirmationCodeEmail` | src/controllers/userVerify.js:52-71 | the generated code is a six-digit code made from the draws; the directory afterwards is exactly what the as-written upsert of that code leaves, so for a string email that email's document holds the code; the handler succeeds exactly when the mail was delivered |
| `UserVerify.Confirm` | src/controllers/userVerify.js:139-141 | the matched document becomes confirmed and loses its code; no other field and no other document changes |
| `UserVerify.Verify` | src/controllers/userVerify.js:131-141 | for a code submitted as a string: InvalidCode exactly when no document matches the email and code, and then nothing changes. On a match, that document is confirmed and its code cleared, and nothing else changes |
| `UserVerify.VerifyAsWritten` | src/controllers/userVerify.js:127-141 | the submitted email and code go into the filter as they arrive: InvalidCode exactly when no document matches them, otherwise the matched document, which satisfies both, is confirmed and cleared with every other field kept; a string email and code behave exactly as `Verify` |
| `UserVerify.VerifyChecked` | src/controllers/userVerify.js:128-131 | an email or a code that is not a string is refused with InvalidCode before any lookup; a string pair behaves as written |
| `UserVerify.IssuePreservesUniqueEmails` | src/controllers/userVerify.js:58-62 | issuing a code keeps emails unique |
| `UserVerify.VerifyPreservesUniqueEmails` | src/controllers/userVerify.js:139-141 | verifying keeps emails unique |
| `UserVerify.VerifyAcceptsOnlyStoredCode` | src/controllers/userVerify.js:131-137 | under unique emails, verification succeeds exactly when the submitted code is the one stored on the email's document |
| `UserVerify.IssuedCodeVerifies` | src/controllers/userVerify.js:58-64 | a freshly issued code verifies, even when its mail was not delivered |
| `UserVerify.OtherCodeFails` | src/controllers/userVerify.js:131-137 | after a code is issued, any other code gets InvalidCode |
| `UserVerify.LastCodeWins` | src/controllers/userVerify.js:58-62 | after two issues, the first code verifies exactly when it equals the second |
| `UserVerify.VerifyIsOneShot` | src/controllers/userVerify.js:131-140 | after a successful verification, the same email and code get InvalidCode |
| `UserVerify.OperatorCodeConfirmsWithoutCode` | src/controllers/userVerify.js:128-131 | once any code has been issued for an email, `{"$ne": null}` as the code confirms that email without the code; `{"$ne": null}` as the email confirms with the code alone or with neither |
| `UserVerify.CodeAloneConfirmsItsHolder` | src/controllers/userVerify.js:128-141 | with the email `{"$ne": null}`, a code that only one account holds confirms that account, whose email the request never names |
| `UserVerify.AnyEmailReplacesFirstAccountsCode` | src/controllers/userVerify.js:53-62 | a send-code request with the email `{"$ne": null}` puts a new code on the first account holding an email; under unique emails, every other code, the one its owner was sent included, then fails for that account |
| `UserVerify.MissingCodeReconfirms` | src/controllers/userVerify.js:131-141 | after any successful verification, `{"$exists": false}` as the code confirms a document without a code again; for a string email under unique emails, it selects the document just confirmed |
| `UserVerify.MissingCodeCanPickAnotherAccount` | src/controllers/userVerify.js:131-141 | with `{"$ne": null}` as the email, the re-check can select an earlier confirmed account rather than the one just confirmed |
| `UserVerify.VerifyCheckedAcceptsOnlyStoredCode` | src/controllers/userVerify.js:131-137 | with the string checks, under unique emails, a submission confirms exactly when it names an email on file, as a string, with the code stored on that email's document, as a string |
| `AuthService.NewUser` | src/services/user-auth-api/general-info-user.js:20-38 | the registered document holds the hash, not the password; it is inactive and unconfirmed, has no code and no location, and its role flags are the truthy request flags |
| `AuthService.SaveSideRecords` | src/services/user-auth-api/general-info-user.js:43-65 | when isAgency is truthy, one new agency document holding the request's name, location and document references; when isTourist is truthy, one new tourist document; every earlier side document unchanged. An agency with no name fails with nothing added, and the user document stays stored |
| `AuthService.RegisterUserAsWritten` | src/services/user-auth-api/general-info-user.js:11-40 | an existing email gives EmailExists. Every new email gives ValidationFailed, with nothing written |
| `AuthService.RegisterUser` | src/services/user-auth-api/general-info-user.js:8-71 | an existing email gives EmailExists and nothing changes. An incomplete profile gives ValidationFailed. Otherwise exactly one user document is added, holding the hash, inactive, and the side documents are added with the contents the flags call for |
| `AuthService.LoginUser` | src/services/user-auth-api/general-info-user.js:74-94 | an unknown email and a wrong password give the same InvalidCredentials. A match yields the token signed over the email. The function returns no new directory |
| `AuthService.GetUserDetailsAsWritten` | src/services/user-auth-api/general-info-user.js:97-117 | NotFound exactly for an unknown email. Otherwise the first and last name come back empty, and the document type, document number, email, agency flag and location come back as stored |
| `AuthService.GetUserDetails` | src/services/user-auth-api/general-info-user.js:100-113 | NotFound exactly for an unknown email. Otherwise the stored names, document type, document number, email, agency flag and location come back |
| `AuthService.RegisterUserAsWrittenNeverSucceeds` | src/services/user-auth-api/general-info-user.js:20-40 | registration as written always fails and never changes the directory |
| `AuthService.RegisterUserAsWrittenRefusesCompleteProfile` | src/services/user-auth-api/general-info-user.js:20-40 | a concrete complete request is refused as written and stored by the corrected registration |
| `AuthService.RegisterPreservesUniqueEmails` | src/services/user-auth-api/general-info-user.js:11-14 | registration keeps emails unique |
| `AuthService.LoginTokenCarriesEmail` | src/services/user-auth-api/general-info-user.js:83-90 | the token from a successful login verifies to the logged-in email |
| `AuthService.RegisterThenLogin` | src/services/user-auth-api/general-info-user.js:17-90 | after a registration, login with the same password succeeds, and its token verifies to that email |
| `AuthService.RegisterThenDetails` | src/services/user-auth-api/general-info-user.js:20-38 | the details read after a registration are the request's names, document and email, its agency flag, and no location |
| `UserController.RegisterUser` | src/controllers/userController.js:107-110 | inserts the body exactly as given when it passes the required-field check, with no uniqueness check and no hashing; otherwise ValidationFailed |
| `UserController.GetUserByEmail` | src/controllers/userController.js:191-207 | NotFound exactly when no document has that email; otherwise a stored document with that email |
| `UserController.Whitelist` | src/controllers/userController.js:278-282 | keeps the phone only when it is truthy, and keeps each flag exactly when it is defined |
| `UserController.UpdateUser` | src/controllers/userController.js:273-294 | NotFound for an absent id. Otherwise only phone, userIsActive, isTourist and isAgency can change, each only when supplied, and every other document is unchanged |
| `Store.DeleteById` | src/controllers/userController.js:330-346 | NotFound for an absent id; otherwise exactly that document is removed. The three delete handlers (users, document types, attachments) are this function |
| `UserController.UpdateUserIdempotent` | src/controllers/userController.js:278-287 | the same update applied twice gives the same result as applying it once |
| `UserController.EmptyUpdateIsNoop` | src/controllers/userController.js:279-282 | an update with an empty phone and no flags changes nothing |
| `UserController.UpdateUserPreservesUniqueEmails` | src/controllers/userController.js:275-287 | the update never touches emails, so it keeps them unique |
| `UserController.RegisterUserCanDuplicateEmail` | src/controllers/userController.js:109-110 | inserting the same valid body twice leaves two documents with one email |
| `UserController.RegisterThenGetThenDelete` | src/controllers/userController.js:107-110 | for an email not on file, the inserted body reads back by email, emails stay unique, and deleting the new id restores the earlier documents |
| `DocumentTypes.Create` | src/controllers/documentType.js:65-85 | a missing or empty name or description is refused. Otherwise exactly one entry is added, holding the name and description |
| `DocumentTypes.Update` | src/controllers/documentType.js:174-192 | NotFound for an absent id; otherwise the entry holds exactly the name and description sent, a missing one as null, and every other entry is unchanged |
| `DocumentTypes.GetAll` | src/controllers/documentType.js:251-255 | returns every stored entry exactly once |
| `DocumentTypes.GetById` | src/controllers/documentType.js:328-337 | the stored entry for the id, or NotFound exactly when it is absent |
| `DocumentTypes.UpdateIdempotent` | src/controllers/documentType.js:179-186 | the same update applied twice gives the same result as applying it once |
| `DocumentTypes.UpdateThenGet` | src/controllers/documentType.js:177-186 | an update reads back as exactly the fields sent; a rename without a description leaves none |
| `DocumentTypes.CreateThenGetThenDelete` | src/controllers/documentType.js:76-85 | a created entry reads back by its id; deleting it restores the earlier entries |
| `DocAttachment.Create` | src/controllers/docAttachment.js:41-50 | adds one entry holding the three inputs when all are present; otherwise ValidationFailed |
| `DocAttachment.Valid` | src/models/userModels/attachment.js:6-8 | an attachment passes its schema exactly when it names a user and a type and has a non-empty file URL |
| `DocAttachment.Update` | src/controllers/docAttachment.js:112-131 | NotFound for an absent id. Otherwise only the fields supplied with a truthy value are overwritten, and every other entry is unchanged |
| `DocAttachment.EmptyUpdateIsNoop` | src/controllers/docAttachment.js:116-124 | an update that supplies nothing leaves the collection unchanged |
| `DocAttachment.UpdateIdempotent` | src/controllers/docAttachment.js:116-124 | the same update applied twice gives the same result as applying it once |
| `DocAttachment.UpdateKeepsValid` | src/controllers/docAttachment.js:116-119 | an update keeps a valid attachment valid |
| `DocAttachment.CreateThenDelete` | src/controllers/docAttachment.js:41-50 | deleting a freshly created attachment restores the earlier documents, and deleting it again is NotFound |
| `LegacyAuthApi.VerifyToken` | user-auth-api/general-info-user.js:150-163 | a missing or empty header, or a token that fails verification, is Unauthorized. A token that verifies yields its decoded claims |
| `LegacyAuthApi.LegacyValid` | user-auth-api/general-info-user.js:70-84 | this revision's required-field check: names, last names, email, phone and code are non-empty strings, and both consents are present |
| `LegacyAuthApi.LegacyKept` | user-auth-api/general-info-user.js:70-84 | this revision's schema has no password path, so a document built with a hash loses the hash, the only path its handlers read that the schema lacks |
| `LegacyAuthApi.LegacyView` | user-auth-api/general-info-user.js:70-84 | the user documents as this revision's handlers see them: the same ids, each document without its hash |
| `LegacyAuthApi.GetUser` | user-auth-api/general-info-user.js:215-226 | a refused token gives Unauthorized before any lookup. Otherwise NotFound, or the claimed email |
| `LegacyAuthApi.Login` | user-auth-api/general-info-user.js:192-212 | over documents that expose their hash: the same InvalidCredentials for an unknown email and for a wrong password, a server error for a document without a hash, and for a match the token signed with the shared secret |
| `LegacyAuthApi.LoginAsWrittenNeverIssuesToken` | user-auth-api/general-info-user.js:195-210 | as written, every stored email gets a server error whatever the password, and an unknown email gets InvalidCredentials: no token is issued, and known emails are told from unknown ones |
| `LegacyAuthApi.Registered` | user-auth-api/general-info-user.js:178-182 | the built document holds the email and the hash, and is unconfirmed and inactive |
| `LegacyAuthApi.RegisterAsWritten` | user-auth-api/general-info-user.js:166-189 | an existing email gives EmailExists; every new email gives a server error, since the schema keeps only the email and requires more |
| `LegacyAuthApi.Register` | user-auth-api/general-info-user.js:168-184 | EmailExists exactly for an existing email, with nothing inserted; otherwise one document with the email and the hash |
| `LegacyAuthApi.VerifyKeepCode` | user-auth-api/general-info-user.js:124-144 | no match gives InvalidCode. A match on a document this revision's schema rejects gives a server error. Otherwise only isConfirmed changes, and the code stays |
| `LegacyAuthApi.VerifyRoute` | user-auth-api/general-info-user.js:124-147 | the confirmation route answers with its handler's result exactly when the JSON parser is mounted before it; otherwise it throws before the handler's `try`, having looked up and stored nothing |
| `LegacyAuthApi.VerifyRouteNeverAnswers` | user-auth-api/general-info-user.js:100-147 | as mounted, the confirmation route always throws before its `try` and neither confirmation route sees a body, while the register and login routes do |
| `LegacyAuthApi.ParserFirstReachesEveryRoute` | user-auth-api/general-info-user.js:146-147 | with the parser mounted first, every route sees its body and the confirmation route answers |
| `LegacyAuthApi.NoHeaderIsUnauthorized` | user-auth-api/general-info-user.js:151-154 | a request with no header, or an empty one, is Unauthorized whatever the directory holds |
| `LegacyAuthApi.LoginTokenPassesGate` | user-auth-api/general-info-user.js:156-207 | a token from this revision's login passes its gate, with the logged-in email as the claim |
| `LegacyAuthApi.RegisterLoginRead` | user-auth-api/general-info-user.js:166-222 | register, then log in, then read the profile with the token: the read returns the registered email |
| `LegacyAuthApi.RegisterAsWrittenNeverStores` | user-auth-api/general-info-user.js:178-187 | this revision's registration as written never stores anything |
| `LegacyAuthApi.VerifyKeepCodeRepeats` | user-auth-api/general-info-user.js:129-137 | after a successful confirmation, the same email and code confirm again, and nothing changes |
| `LegacyAuthApi.VerifyKeepCodeRejectsUpsertedRecord` | user-auth-api/general-info-user.js:108-137 | once a body reaches the handler, the document the code upsert creates for a new email can never be confirmed by this revision |
| `Lifecycle.IssueCodeBlocksRegistration` | src/services/user-auth-api/general-info-user.js:11-14 | once a code has been issued for an email, registering that email gives EmailExists |
| `Lifecycle.IssueGuessThenVerify` | src/controllers/userVerify.js:55-141 | after a code is issued from draws, "000000" verifies only if it is the code, and the real code confirms the document |

## Findings

| source | as written | input that shows it | evidently intended | confidence | as-written member | corrected member |
|---|---|---|---|---|---|---|
| src/services/user-auth-api/general-info-user.js:20-40 | the new document gets neither `confirmationCode` nor `location`, and the schema requires both, so `save()` rejects every registration | a complete profile for a new email, "a@x.com" / "secret123" | a complete profile is registered | medium (depends on the schema library's required check); not executed | `AuthService.RegisterUserAsWrittenNeverSucceeds` | `AuthService.RegisterUser` |
| src/services/user-auth-api/general-info-user.js:105-107 | the details read `firstName` and `lastName`, but the document stores them as `names` and `lastNames`, so both come back undefined | any found user with names set | the stored names are returned | high; not executed | `AuthService.GetUserDetailsAsWritten` | `AuthService.GetUserDetails` |
| user-auth-api/general-info-user.js:178-184 | the handler builds a document of the email and the hash; this revision's schema has no password path, so only the email is kept, and the schema requires names, phone, code and consent flags, so `save()` always throws | any new email | the account is stored with its hash | medium (depends on the schema library's required check); not executed | `LegacyAuthApi.RegisterAsWrittenNeverStores` | `LegacyAuthApi.Register` |
| user-auth-api/general-info-user.js:100-147 | the JSON body parser is mounted after the send-code and verify routes, so `req.body` is undefined there and reading the email and code from it throws before the `try`, so nothing is looked up or confirmed. What follows depends on the versions: Express 4 sends no response, and on Node 15 or later the unhandled rejection ends the whole process; Express 5 answers 500 | any request to `/verifyConfirmationCodeEmail` | the parser is mounted before every route | high that nothing is looked up or confirmed; the consequence depends on the Express and Node versions; not executed | `LegacyAuthApi.VerifyRouteNeverAnswers` | `LegacyAuthApi.ParserFirstReachesEveryRoute` |
| user-auth-api/general-info-user.js:136-137 | behind the parser defect: once a body reaches it, the handler saves with validation, and the document this revision's upsert (lines 108-112) creates for a new email holds only the email and a code, so it can never be confirmed | with the parser mounted first, send a code to a new email, then verify with that code | the document is confirmed; the later revision saves without validation | medium; not executed | `LegacyAuthApi.VerifyKeepCodeRejectsUpsertedRecord` | `UserVerify.IssuedCodeVerifies` |
| src/controllers/userVerify.js:128-131 | the submitted email and code go into the `findOne` filter unchecked, and the JSON parser (app.js:20) delivers objects, which the schema library reads as query operators | after a code is issued for v@x.com, `{"email":"v@x.com","code":{"$ne":null}}` confirms it; `{"email":{"$ne":null},"code":"123456"}` confirms whichever account holds 123456 (`UserVerify.CodeAloneConfirmsItsHolder`); `{"email":{"$ne":null},"code":{"$ne":null}}` confirms the first account holding a code; after a confirmation, `{"$exists":false}` as the code confirms it again (with a string email; with `{"$ne":null}` it confirms the first account without a code, `UserVerify.MissingCodeCanPickAnotherAccount`) | only an email on file and its stored code, both sent as strings, confirm, and only once | high; not executed | `UserVerify.OperatorCodeConfirmsWithoutCode` | `UserVerify.VerifyCheckedAcceptsOnlyStoredCode` |
| src/controllers/userVerify.js:53-59 | the submitted email is the upsert filter unchecked, so an object is read as a query operator | `{"email":{"$ne":null}}` sent to `/sendConfirmationCodeEmail` puts a new code on the first stored account, and the code its owner was sent stops working | only the document of the email named, as a string, is touched | high; not executed | `UserVerify.AnyEmailReplacesFirstAccountsCode` | `UserVerify.IssueCode` |
| user-auth-api/general-info-user.js:195-210 | this revision's schema has no password path, so `user.password` is undefined, and `bcrypt.compare` rejects for every stored email (500), while an unknown email gets 401 | any login for an email on file | a stored password logs in, and unknown emails and wrong passwords get the same 401 | high (the schema library gives a document accessors only for the paths its schema declares); not executed | `LegacyAuthApi.LoginAsWrittenNeverIssuesToken` | `LegacyAuthApi.Login` |

## Left out

- Express apps, routers, middleware, Swagger and CORS are framework wiring.
- The MongoDB connection and configuration are I/O. The collections are
  immutable values, and store failures (and the server errors they cause)
  are not modelled.
- The SMTP mail transport is network I/O. Its answer is the `Delivery`
  parameter.
- bcrypt salts and cost factors, and token signature bytes, are not
  modelled. They are library internals, and `Crypto.Sound` states the only
  facts used. A hash is a function of the password, although bcrypt salts
  it at random.
- `Math.random` is replaced by the six draws passed in.
- Timestamps, `Date.now`, the `iat` claim that signing adds, and
  `populate` joins carry no behaviour here.
- `getAllUsers` is a whole-collection read with a join. It is modelled only
  through the generic `Store.List`.
- `username` is not a field of the user schema, so it is never stored. The
  profile read of the top-level revision is modelled without it.
- `LegacyAuthApi.Login` reads the shared document's hash. The top-level
  revision's own schema has no password field, so in the source its login
  finds no hash; that as-written behaviour is
  `LegacyAuthApi.LoginAsWrittenNeverIssuesToken` over
  `LegacyAuthApi.LegacyView`, recorded under Findings. Otherwise that
  schema enters only through `LegacyAuthApi.LegacyValid` and
  `LegacyAuthApi.LegacyKept`.
- `LegacyAuthApi.LegacyView` drops only the hash. That schema also lacks
  the location, documentType, documentNumber, documentIssueDate and
  birthDate paths, and it types isTourist and isAgency as references
  rather than booleans (general-info-user.js:80-81). The legacy handlers
  read none of these, so the view keeps them as stored.
- The top-level revision's send-code route never sees a body as mounted
  (`LegacyAuthApi.VerifyRouteNeverAnswers`). Its handler body performs the
  same upsert as `UserVerify.IssueCode` and then calls a mail function the
  file does not define, so it is not modelled separately.
- `src/user-auth-api/general-info-user.js` is not part of this model. It
  repeats the top-level revision's logic.
- An undefined submitted email, code or password is modelled as a string
  that matches nothing; an object is modelled only where Findings say so. The driver's handling of undefined filter values is
  not modelled.
- `DocumentTypes.Update` follows the 5.x line of the schema library, where
  an undefined update key is stored as null. The connection options in
  src/config/db.js (`useFindAndModify`, `useCreateIndex`) are refused by
  later lines, so no later line runs this code. From 6.x on, an undefined
  key would leave its field unchanged.
- `UserController.Whitelist`: a flag sent as JSON `null` passes the
  `!== undefined` test, and the source writes null into the field. The
  model's flags are booleans, so `None` means an absent flag only, and an
  explicit null is not modelled.
- `UserVerify.Verify` takes the email and the code as strings. The source
  also accepts objects that the schema library reads as query operators;
  those inputs are modelled by `UserVerify.VerifyAsWritten` and recorded
  under Findings.
- `UserVerify.IssueCode` takes the email as a string. An operator-object
  email is modelled by `UserVerify.IssueCodeAsWritten`, which the send-code
  handler uses, and recorded under Findings.
- `AuthService.LoginUser` and `AuthService.RegisterUser` take the email as
  a string. Their callers are not part of this model, so whether an object
  can reach them is not settled here.
- `UserVerify.VerifyAcceptsOnlyStoredCode` is about string emails and
  codes only. An operator object confirms without being the stored code
  (`UserVerify.OperatorCodeConfirmsWithoutCode`).
- `UserVerify.OtherCodeFails` is about string emails and codes only.
  `{"$ne": null}` differs from every code and still confirms.
- `UserVerify.VerifyIsOneShot` is about string emails and codes only.
  `{"$exists": false}` confirms a verified document again
  (`UserVerify.MissingCodeReconfirms`).
- Query operators other than `{"$ne": null}` (on the email or the code)
  and `{"$exists": false}` (on the code), such as `$in`, `$regex` and
  `$gt`, are not modelled. The two modelled ones
  are enough to show the bypass.
- `LegacyAuthApi.VerifyKeepCode` models the handler body once a body has
  been parsed, with a string email and code. As mounted, no body is ever
  parsed there (`LegacyAuthApi.VerifyRoute`). With a body, an operator-object
  email or code would match as in `UserVerify.VerifyAsWritten`.
- Casting failures (an id that is not an ObjectId, a non-boolean flag) are
  left out. Ids and flags are typed values here.
- Concurrent issue and verify calls are left out. The model is sequential.
- `AuthService.LoginUser`: not modelled is bcrypt's other guarantee, that
  a different password does not match. Only `compare(p, hash(p))` is
  assumed, so a wrong password fails exactly when `compare` says so.

=== FILE: AuthService.dfy ===
/** src/services/user-auth-api/general-info-user.js: registering a user
    (with agency and tourist side documents), logging in, and reading the
    protected profile details. */
module AuthService {
  import opened Base
  import opened Store
  import opened UserModel
  import opened Crypto

  /** The collections registration writes to. */
  datatype Directory = Directory(
    users: Coll<UserRecord>,
    agencies: Coll<AgencyRecord>,
    tourists: Coll<TouristRecord>)

  /** The fields of a registration request that the service reads. */
  datatype Registration = Registration(
    email: string,
    password: string,
    names: Option<string>,
    lastNames: Option<string>,
    phone: Option<string>,
    isTourist: Option<bool>,
    isAgency: Option<bool>,
    isPoliticsTrue: Option<bool>,
    isTtoDtosTrue: Option<bool>,
    documentType: Option<Id>,
    documentNumber: Option<string>,
    documentIssueDate: Option<Date>,
    birthDate: Option<Date>,
    agencyName: Option<string>,
    currentLocation: Option<Id>,
    documentInfo: Option<Id>)

  /** The user document registration builds: the request's profile, the
      hash in place of the password, inactive and unconfirmed, and neither
      a confirmation code nor a location. */
  function NewUser(body: Registration, hashed: string): (u: UserRecord)
    ensures u.email == Some(body.email) && u.password == Some(hashed)
    ensures !u.userIsActive && !u.isConfirmed
    ensures u.confirmationCode.None? && u.location.None?
    ensures u.isTourist == (body.isTourist == Some(true))
    ensures u.isAgency == (body.isAgency == Some(true))
  {
    Blank().(
      names := body.names,
      lastNames := body.lastNames,
      userIsActive := false,
      email := Some(body.email),
      phone := body.phone,
      isTourist := body.isTourist.GetOr(false),
      isAgency := body.isAgency.GetOr(false),
      isPoliticsTrue := body.isPoliticsTrue,
      isTtoDtosTrue := body.isTtoDtosTrue,
      documentType := body.documentType,
      documentNumber := body.documentNumber,
      documentIssueDate := body.documentIssueDate,
      birthDate := body.birthDate,
      password := Some(hashed))
  }

  function AgencyOf(body: Registration): AgencyRecord {
    AgencyRecord(body.agencyName, None, body.currentLocation, body.documentType, body.documentInfo)
  }

  /** `after` holds the side documents of `body` added to those of `d`:
      a new agency document built from the request exactly when isAgency
      is truthy, a new tourist document (every field of which the tourist
      schema drops) exactly when isTourist is, and the earlier documents
      of both kinds unchanged. */
  ghost predicate SideRecordsAdded(d: Directory, after: Directory, body: Registration) {
    && (body.isAgency == Some(true) ==>
          && after.agencies.docs.Keys == d.agencies.docs.Keys + {d.agencies.nextId}
          && after.agencies.docs[d.agencies.nextId] == AgencyOf(body))
    && (body.isAgency != Some(true) ==> after.agencies == d.agencies)
    && (forall k :: k in d.agencies.docs ==> k in after.agencies.docs && after.agencies.docs[k] == d.agencies.docs[k])
    && (body.isTourist == Some(true) ==>
          && after.tourists.docs.Keys == d.tourists.docs.Keys + {d.tourists.nextId}
          && after.tourists.docs[d.tourists.nextId] == TouristRecord(None))
    && (body.isTourist != Some(true) ==> after.tourists == d.tourists)
    && (forall k :: k in d.tourists.docs ==> k in after.tourists.docs && after.tourists.docs[k] == d.tourists.docs[k])
  }

  /** After the user document is saved: an agency document when `isAgency`
      is truthy, then a tourist document when `isTourist` is. An agency
      without a name fails its save, and the user document stays behind. */
  function SaveSideRecords(d: Directory, body: Registration): (r: Step<Directory>)
    ensures r.state.users == d.users
    ensures r.outcome == (if body.isAgency == Some(true) && !AgencyValid(AgencyOf(body))
                          then Fail(ValidationFailed) else Pass)
    ensures r.outcome.Pass? ==> SideRecordsAdded(d, r.state, body)
    ensures r.outcome.Fail? ==> r.state == d
  {
    if body.isAgency == Some(true) && !AgencyValid(AgencyOf(body)) then
      Step(d, Fail(ValidationFailed))
    else
      var agencies := if body.isAgency == Some(true) then Insert(d.agencies, AgencyOf(body)).0 else d.agencies;
      var tourists := if body.isTourist == Some(true) then Insert(d.tourists, TouristRecord(None)).0 else d.tourists;
      Step(Directory(d.users, agencies, tourists), Pass)
  }

  /** `registerUser` as written: the new document is saved with the full
      required-field check, which it can never pass, since it carries no
      confirmation code and no location. */
  function RegisterUserAsWritten(d: Directory, crypto: Crypto, body: Registration): (r: Step<Directory>)
    ensures FindOne(d.users, ByEmail(body.email)).Some? ==> r == Step(d, Fail(EmailExists))
    ensures FindOne(d.users, ByEmail(body.email)).None? ==> r == Step(d, Fail(ValidationFailed))
  {
    if FindOne(d.users, ByEmail(body.email)).Some? then Step(d, Fail(EmailExists))
    else
      var u := NewUser(body, crypto.hash(body.password));
      if !Valid(u) then Step(d, Fail(ValidationFailed))
      else SaveSideRecords(d.(users := Insert(d.users, u).0), body)
  }

  /** `registerUser` with the check it evidently means: the profile the
      request supplies must be complete; the code and location, which
      registration never sets, are not demanded. */
  function RegisterUser(d: Directory, crypto: Crypto, body: Registration): (r: Step<Directory>)
    // an email already on file is refused and nothing is written
    ensures FindOne(d.users, ByEmail(body.email)).Some? ==> r == Step(d, Fail(EmailExists))
    ensures FindOne(d.users, ByEmail(body.email)).None?
            && !ProfileComplete(NewUser(body, crypto.hash(body.password))) ==>
            r == Step(d, Fail(ValidationFailed))
    // otherwise exactly one user document is added, holding the hash
    ensures FindOne(d.users, ByEmail(body.email)).None?
            && ProfileComplete(NewUser(body, crypto.hash(body.password))) ==>
      var id := d.users.nextId;
      && id !in d.users.docs
      && r.state.users.docs.Keys == d.users.docs.Keys + {id}
      && (forall k :: k in d.users.docs ==> r.state.users.docs[k] == d.users.docs[k])
      && r.state.users.docs[id] == NewUser(body, crypto.hash(body.password))
      && r.state.users.docs[id].password == Some(crypto.hash(body.password))
      && !r.state.users.docs[id].userIsActive
      && (r.outcome.Fail? <==> body.isAgency == Some(true) && !AgencyValid(AgencyOf(body)))
      && (r.outcome.Pass? ==> SideRecordsAdded(d, r.state, body))
      && (r.outcome.Fail? ==> r.state.agencies == d.agencies && r.state.tourists == d.tourists)
  {
    if FindOne(d.users, ByEmail(body.email)).Some? then Step(d, Fail(EmailExists))
    else
      var u := NewUser(body, crypto.hash(body.password));
      if !ProfileComplete(u) then Step(d, Fail(ValidationFailed))
      else SaveSideRecords(d.(users := Insert(d.users, u).0), body)
  }

  /** `loginUser`: the same failure for an unknown email and for a wrong
      password; on a match, a token whose claim is the email. A document
      without any stored hash makes bcrypt throw instead. */
  function LoginUser(users: Coll<UserRecord>, crypto: Crypto, secret: string, email: string, password: string)
    : (r: Result<string, ApiError>)
    ensures FindOne(users, ByEmail(email)).None? ==> r == Err(InvalidCredentials)
    ensures FindOne(users, ByEmail(email)).Some? ==>
      var stored := users.docs[FindOne(users, ByEmail(email)).value].password;
      && (stored.None? ==> r == Err(InternalError))
      && (stored.Some? && !crypto.compare(password, stored.value) ==> r == Err(InvalidCredentials))
      && (stored.Some? && crypto.compare(password, stored.value) ==>
            r == Ok(crypto.sign(Claims(email), secret)))
  {
    match FindOne(users, ByEmail(email))
    case None => Err(InvalidCredentials)
    case Some(i) =>
      var u := users.docs[i];
      if u.password.None? then Err(InternalError)
      else if !crypto.compare(password, u.password.value) then Err(InvalidCredentials)
      else Ok(crypto.sign(Claims(u.email.value), secret))
  }

  /** The profile details `getUserDetails` returns. */
  datatype UserDetails = UserDetails(
    firstName: Option<string>,
    lastName: Option<string>,
    documentType: Option<Id>,
    documentNumber: Option<string>,
    email: Option<string>,
    isAgency: bool,
    location: Option<string>)

  /** `getUserDetails` as written: it reads `firstName` and `lastName`,
      which the user document does not have, so both come back empty. */
  function GetUserDetailsAsWritten(users: Coll<UserRecord>, email: string): (r: Result<UserDetails, ApiError>)
    ensures r.Err? <==> FindOne(users, ByEmail(email)).None?
    ensures r.Err? ==> r.error == NotFound
    ensures r.Ok? ==> r.value.firstName.None? && r.value.lastName.None?
    ensures r.Ok? ==>
      var u := users.docs[FindOne(users, ByEmail(email)).value];
      && r.value.email == Some(email)
      && r.value.documentType == u.documentType && r.value.documentNumber == u.documentNumber
      && r.value.isAgency == u.isAgency && r.value.location == u.location
  {
    match FindOne(users, ByEmail(email))
    case None => Err(NotFound)
    case Some(i) =>
      var u := users.docs[i];
      Ok(UserDetails(None, None, u.documentType, u.documentNumber, u.email, u.isAgency, u.location))
  }

  /** `getUserDetails` reading the names the document does store. */
  function GetUserDetails(users: Coll<UserRecord>, email: string): (r: Result<UserDetails, ApiError>)
    ensures r.Err? <==> FindOne(users, ByEmail(email)).None?
    ensures r.Err? ==> r.error == NotFound
    ensures r.Ok? ==>
      var u := users.docs[FindOne(users, ByEmail(email)).value];
      && r.value.email == Some(email)
      && r.value.firstName == u.names && r.value.lastName == u.lastNames
      && r.value.documentType == u.documentType && r.value.documentNumber == u.documentNumber
      && r.value.isAgency == u.isAgency && r.value.location == u.location
  {
    match FindOne(users, ByEmail(email))
    case None => Err(NotFound)
    case Some(i) =>
      var u := users.docs[i];
      Ok(UserDetails(u.names, u.lastNames, u.documentType, u.documentNumber, u.email, u.isAgency, u.location))
  }

  /** The as-written registration never stores anything. */
  lemma RegisterUserAsWrittenNeverSucceeds(d: Directory, crypto: Crypto, body: Registration)
    ensures RegisterUserAsWritten(d, crypto, body).outcome.Fail?
    ensures RegisterUserAsWritten(d, crypto, body).state == d
  {
  }

  /** A concrete complete request that the as-written registration refuses
      and the corrected one stores. */
  lemma RegisterUserAsWrittenRefusesCompleteProfile(crypto: Crypto)
    requires crypto.hash("secret123") != ""
    ensures
      var d := Directory(Empty(), Empty(), Empty());
      var body := Registration("a@x.com", "secret123", Some("Ana"), Some("Diaz"), Some("555"),
                               Some(true), Some(false), Some(true), Some(true), None, Some("123"),
                               Some(0), Some(0), None, None, None);
      && RegisterUserAsWritten(d, crypto, body) == Step(d, Fail(ValidationFailed))
      && RegisterUser(d, crypto, body).outcome == Pass
  {
  }

  lemma RegisterPreservesUniqueEmails(d: Directory, crypto: Crypto, body: Registration)
    requires EmailsUnique(d.users)
    ensures EmailsUnique(RegisterUser(d, crypto, body).state.users)
  {
  }

  /** A token from a successful login verifies to the logged-in email. */
  lemma LoginTokenCarriesEmail(users: Coll<UserRecord>, crypto: Crypto, secret: string, email: string, password: string)
    requires Sound(crypto)
    requires LoginUser(users, crypto, secret, email, password).Ok?
    ensures crypto.verify(LoginUser(users, crypto, secret, email, password).value, secret) == Some(Claims(email))
  {
  }

  /** Registering and then logging in with the same password succeeds, and
      the token verifies to the registered email, even when the agency
      document could not be saved. */
  lemma RegisterThenLogin(d: Directory, crypto: Crypto, secret: string, body: Registration)
    requires Sound(crypto)
    requires FindOne(d.users, ByEmail(body.email)).None?
    requires ProfileComplete(NewUser(body, crypto.hash(body.password)))
    ensures
      var login := LoginUser(RegisterUser(d, crypto, body).state.users, crypto, secret, body.email, body.password);
      && login.Ok?
      && crypto.verify(login.value, secret) == Some(Claims(body.email))
  {
    var users := RegisterUser(d, crypto, body).state.users;
    var id := d.users.nextId;
    assert FindOne(users, ByEmail(body.email)) == Some(id) by {
      assert Matches(ByEmail(body.email), users.docs[id]);
    }
  }

  /** The details read back after a registration are the registered ones:
      the request's names, document and email, the agency flag, and no
      location, since registration never sets one. */
  lemma RegisterThenDetails(d: Directory, crypto: Crypto, body: Registration)
    requires FindOne(d.users, ByEmail(body.email)).None?
    requires ProfileComplete(NewUser(body, crypto.hash(body.password)))
    ensures GetUserDetails(RegisterUser(d, crypto, body).state.users, body.email)
            == Ok(UserDetails(body.names, body.lastNames, body.documentType, body.documentNumber,
                              Some(body.email), body.isAgency == Some(true), None))
  {
    var users := RegisterUser(d, crypto, body).state.users;
    var id := d.users.nextId;
    assert FindOne(users, ByEmail(body.email)) == Some(id) by {
      assert Matches(ByEmail(body.email), users.docs[id]);
    }
  }
}

=== FILE: Base.dfy ===
/** Shared vocabulary of the model: optional values, results, the error
    kinds the handlers report, and the truthiness and "required field"
    tests the JavaScript code and its schema library apply to values. */
module Base {

  /** A value that may be absent (a field left undefined or null). */
  datatype Option<+T> = None | Some(value: T) {
    function GetOr(default: T): T {
      match this
      case Some(v) => v
      case None => default
    }
  }

  /** The outcome of a handler that either yields a value or fails. */
  datatype Result<+R, +E> = Ok(value: R) | Err(error: E)

  /** Error kinds, one per distinct failure response of the handlers. */
  datatype ApiError =
    | EmailExists          // "Email already exists"
    | InvalidCredentials   // "Invalid credentials", unknown email or wrong password
    | InvalidCode          // "Código de confirmación inválido"
    | NotFound             // 404: no record with that id or email
    | Unauthorized         // 401 from the bearer-token gate
    | MissingFields        // 400: a handler's own presence check failed
    | ValidationFailed     // the schema's required-field check rejected a save
    | DeliveryFailed       // the confirmation mail could not be sent
    | InternalError        // any other thrown error (bcrypt on a missing hash, ...)

  /** Whether a handler that also changes state reported success. */
  datatype Outcome = Pass | Fail(error: ApiError)

  /** A transition that may change the state even when it reports failure. */
  datatype Step<S> = Step(state: S, outcome: Outcome)

  /** JavaScript truthiness of an optional string: present and not "".
      The schema library's `required` check on a String path accepts
      exactly the same values, so the schema predicates use it too. */
  predicate Truthy(s: Option<string>) {
    s.Some? && |s.value| > 0
  }
}

=== FILE: Crypto.dfy ===
/** bcrypt and signed bearer tokens (JSON Web Tokens, RFC 7519) are calls
    into libraries outside this model. They are supplied as functions, and
    the only facts the model relies on about them are stated by `Sound`. */
module Crypto {
  import opened Base

  /** The claims a token carries: the account's email. */
  datatype Claims = Claims(email: string)

  datatype Crypto = Crypto(
    hash: string -> string,              // bcrypt.hash(plaintext, 10)
    compare: (string, string) -> bool,   // bcrypt.compare(plaintext, hash)
    sign: (Claims, string) -> string,    // jwt.sign(claims, secret)
    verify: (string, string) -> Option<Claims>)  // jwt.verify(token, secret)

  /** A hash checks against its own plaintext; a token is never the empty
      string (it has three dot-separated parts) and verifies under the
      secret it was signed with, yielding the claims it was signed with. */
  ghost predicate Sound(c: Crypto) {
    && (forall p :: c.compare(p, c.hash(p)))
    && (forall cl, key :: c.sign(cl, key) != "")
    && (forall cl, key :: c.verify(c.sign(cl, key), key) == Some(cl))
  }
}

=== FILE: DocAttachment.dfy ===
/** src/controllers/docAttachment.js: attachments link a user and a
    document type to the URL of a stored file. */
module DocAttachment {
  import opened Base
  import opened Store

  datatype Attachment = Attachment(
    userAttach: Option<Id>,
    typeAttach: Option<Id>,
    fileAttachUrl: Option<string>)

  /** The attachment schema requires all three fields. */
  predicate Valid(a: Attachment) {
    a.userAttach.Some? && a.typeAttach.Some? && Truthy(a.fileAttachUrl)
  }

  /** `createAttachment`: saves the three request fields, under the
      schema's required-field check. */
  function Create(atts: Coll<Attachment>, userAttach: Option<Id>, typeAttach: Option<Id>, fileAttachUrl: Option<string>)
    : (r: Result<(Coll<Attachment>, Id), ApiError>)
    ensures r.Err? <==> userAttach.None? || typeAttach.None? || !Truthy(fileAttachUrl)
    ensures r.Err? ==> r.error == ValidationFailed
    ensures r.Ok? ==>
      var (after, id) := r.value;
      && id !in atts.docs
      && after.docs.Keys == atts.docs.Keys + {id}
      && after.docs[id].userAttach == userAttach
      && after.docs[id].typeAttach == typeAttach
      && after.docs[id].fileAttachUrl == fileAttachUrl
      && (forall k :: k in atts.docs ==> after.docs[k] == atts.docs[k])
  {
    var a := Attachment(userAttach, typeAttach, fileAttachUrl);
    if !Valid(a) then Err(ValidationFailed) else Ok(Insert(atts, a))
  }

  /** Overwrites the fields given with a truthy value, keeps the others. */
  function Patch(a: Attachment, userAttach: Option<Id>, typeAttach: Option<Id>, fileAttachUrl: Option<string>)
    : Attachment
  {
    Attachment(
      if userAttach.Some? then userAttach else a.userAttach,
      if typeAttach.Some? then typeAttach else a.typeAttach,
      if Truthy(fileAttachUrl) then fileAttachUrl else a.fileAttachUrl)
  }

  /** `updateAttachment`: only the fields supplied with a non-empty value
      are overwritten. */
  function Update(atts: Coll<Attachment>, id: Id, userAttach: Option<Id>, typeAttach: Option<Id>, fileAttachUrl: Option<string>)
    : (r: Result<Coll<Attachment>, ApiError>)
    ensures r.Err? <==> id !in atts.docs
    ensures r.Err? ==> r.error == NotFound
    ensures r.Ok? ==> r.value.docs.Keys == atts.docs.Keys
    ensures r.Ok? ==>
      var before := atts.docs[id];
      var after := r.value.docs[id];
      && (userAttach.None? ==> after.userAttach == before.userAttach)
      && (userAttach.Some? ==> after.userAttach == userAttach)
      && (typeAttach.None? ==> after.typeAttach == before.typeAttach)
      && (typeAttach.Some? ==> after.typeAttach == typeAttach)
      && (!Truthy(fileAttachUrl) ==> after.fileAttachUrl == before.fileAttachUrl)
      && (Truthy(fileAttachUrl) ==> after.fileAttachUrl == fileAttachUrl)
      && (forall k :: k in atts.docs && k != id ==> r.value.docs[k] == atts.docs[k])
  {
    if id !in atts.docs then Err(NotFound)
    else Ok(Put(atts, id, Patch(atts.docs[id], userAttach, typeAttach, fileAttachUrl)))
  }

  /** `deleteAttachment`: removes that entry only, or reports NotFound. */
  function Delete(atts: Coll<Attachment>, id: Id): Result<Coll<Attachment>, ApiError>
  {
    DeleteById(atts, id)
  }

  /** An update that supplies nothing leaves the collection as it was. */
  lemma EmptyUpdateIsNoop(atts: Coll<Attachment>, id: Id, fileAttachUrl: Option<string>)
    requires id in atts.docs
    requires !Truthy(fileAttachUrl)
    ensures Update(atts, id, None, None, fileAttachUrl) == Ok(atts)
  {
    assert atts.docs[id := atts.docs[id]] == atts.docs;
  }

  /** Sending the same update twice leaves the same collection as once. */
  lemma UpdateIdempotent(atts: Coll<Attachment>, id: Id, userAttach: Option<Id>, typeAttach: Option<Id>, fileAttachUrl: Option<string>)
    requires id in atts.docs
    ensures
      var once := Update(atts, id, userAttach, typeAttach, fileAttachUrl).value;
      Update(once, id, userAttach, typeAttach, fileAttachUrl) == Ok(once)
  {
    var once := Update(atts, id, userAttach, typeAttach, fileAttachUrl).value;
    assert once.docs[id := once.docs[id]] == once.docs;
  }

  /** A valid attachment stays valid under any update: the update can
      only overwrite a field with a value the schema accepts. */
  lemma UpdateKeepsValid(atts: Coll<Attachment>, id: Id, userAttach: Option<Id>, typeAttach: Option<Id>, fileAttachUrl: Option<string>)
    requires id in atts.docs && Valid(atts.docs[id])
    ensures Valid(Update(atts, id, userAttach, typeAttach, fileAttachUrl).value.docs[id])
  {
  }

  /** Deleting a freshly created attachment restores the collection's
      documents, and a second delete of the same id is NotFound. */
  lemma CreateThenDelete(atts: Coll<Attachment>, userAttach: Id, typeAttach: Id, fileAttachUrl: string)
    requires fileAttachUrl != ""
    ensures
      var (after, id) := Create(atts, Some(userAttach), Some(typeAttach), Some(fileAttachUrl)).value;
      && after.docs[id] == Attachment(Some(userAttach), Some(typeAttach), Some(fileAttachUrl))
      && Delete(after, id).Ok?
      && Delete(after, id).value.docs == atts.docs
      && Delete(Delete(after, id).value, id) == Err(NotFound)
  {
    var (after, id) := Create(atts, Some(userAttach), Some(typeAttach), Some(fileAttachUrl)).value;
    assert Delete(after, id).value.docs == atts.docs;
  }
}

=== FILE: DocumentTypes.dfy ===
/** src/controllers/documentType.js: the catalogue of document types, a
    collection of (name, description) entries. */
module DocumentTypes {
  import opened Base
  import opened Store

  datatype DocumentType = DocumentType(name: Option<string>, description: Option<string>)

  /** `createDocumentType`: both fields must be truthy; the new entry then
      holds exactly them. */
  function Create(types: Coll<DocumentType>, name: Option<string>, description: Option<string>)
    : (r: Result<(Coll<DocumentType>, Id), ApiError>)
    ensures r.Err? <==> !Truthy(name) || !Truthy(description)
    ensures r.Err? ==> r.error == MissingFields
    ensures r.Ok? ==>
      var (after, id) := r.value;
      && id !in types.docs
      && after.docs.Keys == types.docs.Keys + {id}
      && after.docs[id] == DocumentType(name, description)
      && (forall k :: k in types.docs ==> after.docs[k] == types.docs[k])
  {
    if !Truthy(name) || !Truthy(description) then Err(MissingFields)
    else Ok(Insert(types, DocumentType(name, description)))
  }

  /** `updateDocumentType`: both request fields are written as they
      arrive, with no presence check. On the 5.x line of the schema library,
      which the connection options in src/config/db.js belong to, a key
      missing from the body goes into the update as undefined and is stored
      as null: an update that names only one field clears the other. */
  function Update(types: Coll<DocumentType>, id: Id, name: Option<string>, description: Option<string>)
    : (r: Result<Coll<DocumentType>, ApiError>)
    ensures r.Err? <==> id !in types.docs
    ensures r.Err? ==> r.error == NotFound
    ensures r.Ok? ==> r.value.docs.Keys == types.docs.Keys
    ensures r.Ok? ==>
      && r.value.docs[id] == DocumentType(name, description)
      && forall k :: k in types.docs && k != id ==> r.value.docs[k] == types.docs[k]
  {
    if id !in types.docs then Err(NotFound)
    else Ok(Put(types, id, DocumentType(name, description)))
  }

  /** `getAllDocumentType`: every stored entry, in insertion order. */
  method GetAll(types: Coll<DocumentType>) returns (all: seq<(Id, DocumentType)>)
    ensures forall k :: 0 <= k < |all| ==> all[k].0 in types.docs && types.docs[all[k].0] == all[k].1
    ensures forall id :: id in types.docs ==> exists k :: 0 <= k < |all| && all[k].0 == id
    ensures forall j, k :: 0 <= j < k < |all| ==> all[j].0 < all[k].0
  {
    all := List(types);
  }

  /** `getDocumentTypeById`: the stored entry, or NotFound. */
  function GetById(types: Coll<DocumentType>, id: Id): (r: Result<DocumentType, ApiError>)
    ensures r.Err? <==> id !in types.docs
    ensures r.Err? ==> r.error == NotFound
    ensures r.Ok? ==> r.value == types.docs[id]
  {
    match Get(types, id)
    case None => Err(NotFound)
    case Some(t) => Ok(t)
  }

  /** `deleteDocumentType`: removes that entry only, or reports NotFound. */
  function Delete(types: Coll<DocumentType>, id: Id): Result<Coll<DocumentType>, ApiError>
  {
    DeleteById(types, id)
  }

  /** A created entry reads back by its id, and is gone after deletion. */
  lemma CreateThenGetThenDelete(types: Coll<DocumentType>, name: string, description: string)
    requires name != "" && description != ""
    ensures
      var (after, id) := Create(types, Some(name), Some(description)).value;
      && GetById(after, id) == Ok(DocumentType(Some(name), Some(description)))
      && Delete(after, id).Ok?
      && GetById(Delete(after, id).value, id) == Err(NotFound)
      && Delete(after, id).value.docs == types.docs
  {
    var (after, id) := Create(types, Some(name), Some(description)).value;
    assert Delete(after, id).value.docs == types.docs;
  }

  /** Sending the same update twice leaves the same catalogue as once. */
  lemma UpdateIdempotent(types: Coll<DocumentType>, id: Id, name: Option<string>, description: Option<string>)
    requires id in types.docs
    ensures
      var once := Update(types, id, name, description).value;
      Update(once, id, name, description) == Ok(once)
  {
    var once := Update(types, id, name, description).value;
    assert once.docs[id := once.docs[id]] == once.docs;
  }

  /** An update reads back as exactly the fields it sent: renaming an
      entry without a description leaves it with none. */
  lemma UpdateThenGet(types: Coll<DocumentType>, id: Id, name: string)
    requires id in types.docs
    ensures GetById(Update(types, id, Some(name), None).value, id) == Ok(DocumentType(Some(name), None))
    ensures GetById(Update(types, id, Some(name), None).value, id).value.description.None?
  {
  }
}

=== FILE: Helpers.dfy ===
/** src/utils/helpers.js: the six-digit confirmation code. The random
    source is a parameter: six draws, each the value of
    `Math.floor(Math.random() * 10)`. */
module Helpers {

  const Digits: string := "0123456789"

  /** Six draws as the generator takes them from the random source. */
  predicate ValidDraws(draws: seq<int>) {
    |draws| == 6 && forall i :: 0 <= i < 6 ==> 0 <= draws[i] < 10
  }

  predicate IsDigit(c: char) {
    '0' <= c <= '9'
  }

  /** A string of exactly six decimal digits, leading zeros allowed. */
  predicate IsCode(s: string) {
    |s| == 6 && forall i :: 0 <= i < 6 ==> IsDigit(s[i])
  }

  /** The numeric value of a digit character. */
  function DigitValue(c: char): (v: int)
    requires IsDigit(c)
    ensures 0 <= v < 10 && Digits[v] == c
  {
    c as int - '0' as int
  }

  /** The code the draws spell out: character i is the digit for draw i,
      so reading the code back digit by digit gives the draws. */
  function CodeFromDraws(draws: seq<int>): (code: string)
    requires ValidDraws(draws)
    ensures IsCode(code)
    ensures forall i :: 0 <= i < 6 ==> DigitValue(code[i]) == draws[i]
  {
    seq(6, i requires 0 <= i < 6 => Digits[draws[i]])
  }

  /** The draws that read a code back, digit by digit. */
  function DrawsOf(code: string): (draws: seq<int>)
    requires IsCode(code)
    ensures ValidDraws(draws)
  {
    seq(6, i requires 0 <= i < 6 => DigitValue(code[i]))
  }

  /** `generateConfirmationCode`: appends one digit per draw. */
  method GenerateConfirmationCode(draws: seq<int>) returns (code: string)
    requires ValidDraws(draws)
    ensures code == CodeFromDraws(draws)
  {
    code := "";
    var i := 0;
    while i < 6
      invariant 0 <= i <= 6
      invariant |code| == i
      invariant forall k :: 0 <= k < i ==> code[k] == Digits[draws[k]]
    {
      code := code + [Digits[draws[i]]];
      i := i + 1;
    }
  }

  /** Every six-digit string, "000000" included, is produced by some draws. */
  lemma EveryCodeIsProducible(code: string)
    requires IsCode(code)
    ensures ValidDraws(DrawsOf(code)) && CodeFromDraws(DrawsOf(code)) == code
  {
    var back := CodeFromDraws(DrawsOf(code));
    assert forall i :: 0 <= i < 6 ==> back[i] == code[i];
  }

  /** Different draws give different codes: the code determines the draws. */
  lemma CodeDeterminesDraws(d1: seq<int>, d2: seq<int>)
    requires ValidDraws(d1) && ValidDraws(d2)
    requires CodeFromDraws(d1) == CodeFromDraws(d2)
    ensures d1 == d2
  {
    assert forall i :: 0 <= i < 6 ==> d1[i] == DigitValue(CodeFromDraws(d1)[i]);
  }
}

=== FILE: LegacyAuthApi.dfy ===
/** user-auth-api/general-info-user.js, the earlier single-file revision:
    the bearer-token gate, its register / login / profile handlers, and its
    confirmation step, which sets the flag but keeps the code. Its handlers
    run here over the same user documents as the rest of the model. */
module LegacyAuthApi {
  import opened Base
  import opened Store
  import opened UserModel
  import opened Crypto
  import UserVerify

  /** The signing secret this revision hard-codes on both sides. */
  const Secret: string := "secret"

  /** The handlers and the JSON body parser of this revision's app. */
  datatype Layer = SendCodeRoute | VerifyCodeRoute | JsonParser | RegisterRoute | LoginRoute | UserRoute

  /** The order in which the app mounts them: the parser comes after the
      two confirmation routes. */
  const MountOrder: seq<Layer> :=
    [SendCodeRoute, VerifyCodeRoute, JsonParser, RegisterRoute, LoginRoute, UserRoute]

  /** The order the app evidently means: the parser before every route. */
  const ParserFirst: seq<Layer> :=
    [JsonParser, SendCodeRoute, VerifyCodeRoute, RegisterRoute, LoginRoute, UserRoute]

  /** A route sees a parsed body only when the parser is mounted before it. */
  predicate BodyParsed(order: seq<Layer>, route: Layer) {
    exists i, j :: 0 <= i < j < |order| && order[i] == JsonParser && order[j] == route
  }

  /** What a route does with a request: answer with its handler's result,
      or throw before the handler's `try`, having looked up and stored
      nothing. What the client then sees depends on the framework and the
      runtime, not on this code. */
  datatype Reply<T> = Answered(result: Result<T, ApiError>) | ThrewBeforeTry

  /** The required fields of this revision's own user schema. */
  predicate LegacyValid(u: UserRecord) {
    && Truthy(u.names)
    && Truthy(u.lastNames)
    && Truthy(u.email)
    && Truthy(u.phone)
    && Truthy(u.confirmationCode)
    && u.isPoliticsTrue.Some?
    && u.isTtoDtosTrue.Some?
  }

  /** `verifyToken`: the raw `authorization` header is the token. A
      missing or empty header, or a token that fails verification, is
      refused; otherwise the decoded claims go on to the handler. */
  function VerifyToken(crypto: Crypto, authorization: Option<string>): (r: Result<Claims, ApiError>)
    ensures !Truthy(authorization) ==> r == Err(Unauthorized)
    ensures Truthy(authorization) && crypto.verify(authorization.value, Secret).None? ==> r == Err(Unauthorized)
    ensures Truthy(authorization) && crypto.verify(authorization.value, Secret).Some? ==>
      r == Ok(crypto.verify(authorization.value, Secret).value)
  {
    if !Truthy(authorization) then Err(Unauthorized)
    else match crypto.verify(authorization.value, Secret)
      case None => Err(Unauthorized)
      case Some(claims) => Ok(claims)
  }

  /** `GET /api/user` behind the gate: the email of the document the
      token's claim names. */
  function GetUser(users: Coll<UserRecord>, crypto: Crypto, authorization: Option<string>)
    : (r: Result<string, ApiError>)
    ensures VerifyToken(crypto, authorization).Err? ==> r == Err(Unauthorized)
    ensures VerifyToken(crypto, authorization).Ok? ==>
      var email := VerifyToken(crypto, authorization).value.email;
      && (r.Err? <==> FindOne(users, ByEmail(email)).None?)
      && (r.Err? ==> r.error == NotFound)
      && (r.Ok? ==> r.value == email)
  {
    match VerifyToken(crypto, authorization)
    case Err(e) => Err(e)
    case Ok(claims) =>
      match FindOne(users, ByEmail(claims.email))
      case None => Err(NotFound)
      case Some(i) => Ok(users.docs[i].email.value)
  }

  /** `POST /api/login`: one 401 for an unknown email and for a wrong
      password; a document without a stored hash makes bcrypt throw (500). */
  function Login(users: Coll<UserRecord>, crypto: Crypto, email: string, password: string)
    : (r: Result<string, ApiError>)
    ensures FindOne(users, ByEmail(email)).None? ==> r == Err(InvalidCredentials)
    ensures FindOne(users, ByEmail(email)).Some? ==>
      var stored := users.docs[FindOne(users, ByEmail(email)).value].password;
      && (stored.None? ==> r == Err(InternalError))
      && (stored.Some? && !crypto.compare(password, stored.value) ==> r == Err(InvalidCredentials))
      && (stored.Some? && crypto.compare(password, stored.value) ==> r == Ok(crypto.sign(Claims(email), Secret)))
  {
    match FindOne(users, ByEmail(email))
    case None => Err(InvalidCredentials)
    case Some(i) =>
      var u := users.docs[i];
      if u.password.None? then Err(InternalError)
      else if !crypto.compare(password, u.password.value) then Err(InvalidCredentials)
      else Ok(crypto.sign(Claims(u.email.value), Secret))
  }

  /** The document `POST /api/register` builds: an email and a hash. */
  function Registered(crypto: Crypto, email: string, password: string): (u: UserRecord)
    ensures u.email == Some(email) && u.password == Some(crypto.hash(password))
    ensures !u.isConfirmed && !u.userIsActive
  {
    Blank().(email := Some(email), password := Some(crypto.hash(password)))
  }

  /** What this revision's schema keeps of a document it is given: it has
      no password path, so the hash is dropped when the document is built. */
  function LegacyKept(u: UserRecord): (k: UserRecord)
    ensures k.password.None?
    ensures k.(password := u.password) == u
  {
    u.(password := None)
  }

  /** The user documents as this revision's schema exposes them: the
      same documents without the hash, for which it has no path. */
  function LegacyView(users: Coll<UserRecord>): (v: Coll<UserRecord>)
    ensures v.docs.Keys == users.docs.Keys
    ensures forall k :: k in users.docs ==> v.docs[k] == LegacyKept(users.docs[k])
  {
    Collection(map k | k in users.docs :: LegacyKept(users.docs[k]), users.nextId)
  }

  /** `POST /api/register` as written: of the email and hash it builds,
      the schema keeps the email alone, and saves it under this revision's
      required-field check, which that never passes. */
  function RegisterAsWritten(users: Coll<UserRecord>, crypto: Crypto, email: string, password: string)
    : (r: Result<Coll<UserRecord>, ApiError>)
    ensures FindOne(users, ByEmail(email)).Some? ==> r == Err(EmailExists)
    ensures FindOne(users, ByEmail(email)).None? ==> r == Err(InternalError)
  {
    if FindOne(users, ByEmail(email)).Some? then Err(EmailExists)
    else
      var u := LegacyKept(Registered(crypto, email, password));
      if !LegacyValid(u) then Err(InternalError) else Ok(Insert(users, u).0)
  }

  /** `POST /api/register` storing what it evidently means to store: the
      email and the hash, under a schema that has a password path. */
  function Register(users: Coll<UserRecord>, crypto: Crypto, email: string, password: string)
    : (r: Result<Coll<UserRecord>, ApiError>)
    ensures r.Err? <==> FindOne(users, ByEmail(email)).Some?
    ensures r.Err? ==> r.error == EmailExists
    ensures r.Ok? ==>
      && r.value.docs.Keys == users.docs.Keys + {users.nextId}
      && users.nextId !in users.docs
      && r.value.docs[users.nextId].email == Some(email)
      && r.value.docs[users.nextId].password == Some(crypto.hash(password))
      && (forall k :: k in users.docs ==> r.value.docs[k] == users.docs[k])
  {
    if FindOne(users, ByEmail(email)).Some? then Err(EmailExists)
    else Ok(Insert(users, Registered(crypto, email, password)).0)
  }

  /** `POST /verifyConfirmationCodeEmail` of this revision: sets the flag,
      keeps the code, and saves under the required-field check, which a
      document short of required fields fails (500, nothing written). */
  function VerifyKeepCode(users: Coll<UserRecord>, email: string, code: string)
    : (r: Result<Coll<UserRecord>, ApiError>)
    ensures FindOne(users, ByEmailAndCode(email, code)).None? ==> r == Err(InvalidCode)
    ensures FindOne(users, ByEmailAndCode(email, code)).Some? ==>
      var i := FindOne(users, ByEmailAndCode(email, code)).value;
      && (!LegacyValid(users.docs[i]) ==> r == Err(InternalError))
      && (LegacyValid(users.docs[i]) ==>
            && r.Ok?
            && r.value.docs.Keys == users.docs.Keys
            && r.value.docs[i].isConfirmed
            && r.value.docs[i].confirmationCode == Some(code)
            && r.value.docs[i].(isConfirmed := users.docs[i].isConfirmed) == users.docs[i]
            && (forall k :: k in users.docs && k != i ==> r.value.docs[k] == users.docs[k]))
  {
    match FindOne(users, ByEmailAndCode(email, code))
    case None => Err(InvalidCode)
    case Some(i) =>
      var u := users.docs[i].(isConfirmed := true);
      if !LegacyValid(u) then Err(InternalError) else Ok(Put(users, i, u))
  }

  /** `POST /verifyConfirmationCodeEmail` mounted in `order`: without a
      parsed body, reading the email and code from `req.body` throws before
      the handler's `try`; with one, the handler runs. */
  function VerifyRoute(order: seq<Layer>, users: Coll<UserRecord>, email: string, code: string)
    : (r: Reply<Coll<UserRecord>>)
    ensures !BodyParsed(order, VerifyCodeRoute) ==> r == ThrewBeforeTry
    ensures BodyParsed(order, VerifyCodeRoute) ==> r == Answered(VerifyKeepCode(users, email, code))
  {
    if BodyParsed(order, VerifyCodeRoute) then Answered(VerifyKeepCode(users, email, code)) else ThrewBeforeTry
  }

  /** As mounted, the confirmation route never answers, whatever is sent,
      and neither confirmation route sees a body; the routes mounted after
      the parser do. */
  lemma VerifyRouteNeverAnswers(users: Coll<UserRecord>, email: string, code: string)
    ensures VerifyRoute(MountOrder, users, email, code) == ThrewBeforeTry
    ensures !BodyParsed(MountOrder, SendCodeRoute)
    ensures BodyParsed(MountOrder, RegisterRoute) && BodyParsed(MountOrder, LoginRoute)
  {
    assert MountOrder[2] == JsonParser && MountOrder[3] == RegisterRoute && MountOrder[4] == LoginRoute;
    forall i, j | 0 <= i < j < |MountOrder| && MountOrder[i] == JsonParser
      ensures MountOrder[j] != VerifyCodeRoute && MountOrder[j] != SendCodeRoute
    {
      assert i == 2;
    }
  }

  /** With the parser first, every route sees its body, and the
      confirmation route answers with its handler's result. */
  lemma ParserFirstReachesEveryRoute(users: Coll<UserRecord>, email: string, code: string)
    ensures forall k :: 0 < k < |ParserFirst| ==> BodyParsed(ParserFirst, ParserFirst[k])
    ensures VerifyRoute(ParserFirst, users, email, code) == Answered(VerifyKeepCode(users, email, code))
  {
    assert ParserFirst[0] == JsonParser;
    assert ParserFirst[2] == VerifyCodeRoute;
  }

  /** `POST /api/login` as written: `user.password` is not exposed by this
      revision's schema, so bcrypt gets no hash and throws for every stored
      email, while an unknown email gets 401. No token is ever issued, and
      the answer tells a known email from an unknown one. */
  lemma LoginAsWrittenNeverIssuesToken(users: Coll<UserRecord>, crypto: Crypto, email: string, password: string)
    ensures FindOne(users, ByEmail(email)).None? ==>
      Login(LegacyView(users), crypto, email, password) == Err(InvalidCredentials)
    ensures FindOne(users, ByEmail(email)).Some? ==>
      Login(LegacyView(users), crypto, email, password) == Err(InternalError)
  {
    var v := LegacyView(users);
    assert forall k :: k in users.docs ==> (Matches(ByEmail(email), v.docs[k]) <==> Matches(ByEmail(email), users.docs[k]));
  }

  /** Without a header the gate refuses, whatever the directory holds. */
  lemma NoHeaderIsUnauthorized(users: Coll<UserRecord>, crypto: Crypto)
    ensures GetUser(users, crypto, None) == Err(Unauthorized)
    ensures GetUser(users, crypto, Some("")) == Err(Unauthorized)
  {
  }

  /** A token from this revision's login passes its gate, with the
      logged-in email as the claim: both sides use the same secret. */
  lemma LoginTokenPassesGate(users: Coll<UserRecord>, crypto: Crypto, email: string, password: string)
    requires Sound(crypto)
    requires Login(users, crypto, email, password).Ok?
    ensures
      var token := Login(users, crypto, email, password).value;
      VerifyToken(crypto, Some(token)) == Ok(Claims(email))
  {
  }

  /** Register, log in, then read the profile: the read names the account. */
  lemma RegisterLoginRead(users: Coll<UserRecord>, crypto: Crypto, email: string, password: string)
    requires Sound(crypto)
    requires Register(users, crypto, email, password).Ok?
    ensures
      var after := Register(users, crypto, email, password).value;
      && Login(after, crypto, email, password).Ok?
      && GetUser(after, crypto, Some(Login(after, crypto, email, password).value)) == Ok(email)
  {
    var after := Register(users, crypto, email, password).value;
    assert FindOne(after, ByEmail(email)) == Some(users.nextId) by {
      assert Matches(ByEmail(email), after.docs[users.nextId]);
    }
    LoginTokenPassesGate(after, crypto, email, password);
  }

  /** This revision's registration as written stores nothing. */
  lemma RegisterAsWrittenNeverStores(users: Coll<UserRecord>, crypto: Crypto, email: string, password: string)
    ensures RegisterAsWritten(users, crypto, email, password).Err?
  {
  }

  /** The code survives a confirmation, so the same pair confirms again. */
  lemma VerifyKeepCodeRepeats(users: Coll<UserRecord>, email: string, code: string)
    requires VerifyKeepCode(users, email, code).Ok?
    ensures
      var once := VerifyKeepCode(users, email, code).value;
      VerifyKeepCode(once, email, code) == Ok(once)
  {
    var i := FindOne(users, ByEmailAndCode(email, code)).value;
    var once := VerifyKeepCode(users, email, code).value;
    assert FindOne(once, ByEmailAndCode(email, code)) == Some(i) by {
      assert forall j :: j in once.docs && j < i ==> once.docs[j] == users.docs[j];
    }
    assert once.docs[i := once.docs[i]] == once.docs;
  }

  /** The document the code upsert creates for a new email (an email and a
      code) misses this schema's names, phone and consent flags, so this
      revision can never confirm it, even with the right code. */
  lemma VerifyKeepCodeRejectsUpsertedRecord(users: Coll<UserRecord>, email: string, code: string,
                                            delivery: UserVerify.Delivery)
    requires FindOne(users, ByEmail(email)).None?
    ensures VerifyKeepCode(UserVerify.IssueCode(users, email, code, delivery).state, email, code) == Err(InternalError)
  {
    var after := UserVerify.IssueCode(users, email, code, delivery).state;
    assert Matches(ByEmailAndCode(email, code), after.docs[users.nextId]);
  }
}

=== FILE: Lifecycle.dfy ===
/** The account lifecycle across the handlers: issuing and verifying a
    code, and how registration meets the documents the code upsert leaves. */
module Lifecycle {
  import opened Base
  import opened Store
  import opened UserModel
  import opened UserVerify
  import AuthService
  import Helpers
  import Crypto

  /** Issuing a code creates the email's document, so a later registration
      for that email is refused as an existing email: the services
      registration cannot finalize an account that went through the code
      step. */
  lemma IssueCodeBlocksRegistration(d: AuthService.Directory, crypto: Crypto.Crypto, body: AuthService.Registration,
                                    code: string, delivery: Delivery)
    ensures
      var issued := d.(users := IssueCode(d.users, body.email, code, delivery).state);
      AuthService.RegisterUser(issued, crypto, body) == Step(issued, Fail(EmailExists))
  {
  }

  /** Issue a code from draws, try "000000", then the real code: the first
      attempt fails unless the code is "000000", the second confirms. */
  lemma IssueGuessThenVerify(users: Coll<UserRecord>, email: string, draws: seq<int>, delivery: Delivery)
    requires EmailsUnique(users)
    requires Helpers.ValidDraws(draws)
    ensures
      var code := Helpers.CodeFromDraws(draws);
      var issued := IssueCode(users, email, code, delivery).state;
      && (Verify(issued, email, "000000").Ok? <==> code == "000000")
      && Verify(issued, email, code).Ok?
      && var i := FindOne(issued, ByEmail(email)).value;
         Verify(issued, email, code).value.docs[i].isConfirmed
  {
    var code := Helpers.CodeFromDraws(draws);
    var issued := IssueCode(users, email, code, delivery).state;
    IssuePreservesUniqueEmails(users, email, code, delivery);
    VerifyAcceptsOnlyStoredCode(issued, email, "000000");
    IssuedCodeVerifies(users, email, code, delivery);
    var i := FindOne(issued, ByEmail(email)).value;
    assert FindOne(issued, ByEmailAndCode(email, code)) == Some(i);
  }
}

=== FILE: Store.dfy ===
/** A document collection of the database, as an immutable value: the
    documents by id, and the id the next insert will receive. Ids are
    handed out in increasing order, so id order is insertion order. */
module Store {
  import opened Base

  type Id = nat

  datatype Collection<T> = Collection(docs: map<Id, T>, nextId: Id) {
    /** Every stored id was handed out before. */
    ghost predicate Valid() {
      forall k :: k in docs ==> k < nextId
    }
  }

  type Coll<T> = c: Collection<T> | c.Valid() witness Collection(map[], 0)

  /** The empty collection. */
  function Empty<T>(): Coll<T> {
    Collection(map[], 0)
  }

  /** Stores `v` under a fresh id; every earlier document stays as it was. */
  function Insert<T>(c: Coll<T>, v: T): (r: (Coll<T>, Id))
    ensures r.1 !in c.docs
    ensures r.0.docs.Keys == c.docs.Keys + {r.1}
    ensures r.0.docs[r.1] == v
    ensures forall k :: k in c.docs ==> r.0.docs[k] == c.docs[k]
  {
    (Collection(c.docs[c.nextId := v], c.nextId + 1), c.nextId)
  }

  /** Replaces the document stored under an existing id. */
  function Put<T>(c: Coll<T>, id: Id, v: T): (r: Coll<T>)
    requires id in c.docs
    ensures r.docs.Keys == c.docs.Keys
    ensures r.docs[id] == v
    ensures forall k :: k in c.docs && k != id ==> r.docs[k] == c.docs[k]
  {
    Collection(c.docs[id := v], c.nextId)
  }

  /** Removes the document stored under an id, if any. */
  function Remove<T>(c: Coll<T>, id: Id): (r: Coll<T>)
    ensures r.docs.Keys == c.docs.Keys - {id}
    ensures forall k :: k in r.docs ==> r.docs[k] == c.docs[k]
  {
    Collection(c.docs - {id}, c.nextId)
  }

  /** `findByIdAndDelete` as the delete handlers answer it: NotFound for
      an absent id, otherwise the collection without that one document. */
  function DeleteById<T>(c: Coll<T>, id: Id): (r: Result<Coll<T>, ApiError>)
    ensures r.Err? <==> id !in c.docs
    ensures r.Err? ==> r.error == NotFound
    ensures r.Ok? ==>
      && r.value.docs.Keys == c.docs.Keys - {id}
      && forall k :: k in r.value.docs ==> r.value.docs[k] == c.docs[k]
  {
    if id !in c.docs then Err(NotFound) else Ok(Remove(c, id))
  }

  /** The document under `id`, or None. */
  function Get<T>(c: Coll<T>, id: Id): (r: Option<T>)
    ensures r.Some? <==> id in c.docs
    ensures r.Some? ==> r.value == c.docs[id]
  {
    if id in c.docs then Some(c.docs[id]) else None
  }

  /** A `find()` over the whole collection: every document, in id order. */
  method List<T>(c: Coll<T>) returns (s: seq<(Id, T)>)
    ensures forall k :: 0 <= k < |s| ==> s[k].0 in c.docs && c.docs[s[k].0] == s[k].1
    ensures forall id :: id in c.docs ==> exists k :: 0 <= k < |s| && s[k].0 == id
    ensures forall j, k :: 0 <= j < k < |s| ==> s[j].0 < s[k].0
  {
    s := [];
    var i := 0;
    while i < c.nextId
      invariant 0 <= i <= c.nextId
      invariant forall k :: 0 <= k < |s| ==> s[k].0 in c.docs && c.docs[s[k].0] == s[k].1
      invariant forall k :: 0 <= k < |s| ==> s[k].0 < i
      invariant forall id :: id in c.docs && id < i ==> exists k :: 0 <= k < |s| && s[k].0 == id
      invariant forall j, k :: 0 <= j < k < |s| ==> s[j].0 < s[k].0
    {
      if i in c.docs {
        ghost var before := s;
        s := s + [(i, c.docs[i])];
        assert s[|s| - 1].0 == i;
        assert forall k :: 0 <= k < |before| ==> s[k] == before[k];
      }
      i := i + 1;
    }
  }
}

=== FILE: UserController.dfy ===
/** src/controllers/userController.js: the raw user endpoints. Insertion
    takes the request body as the document; the update touches only a
    whitelist of fields; lookups and deletion report a missing document. */
module UserController {
  import opened Base
  import opened Store
  import opened UserModel

  /** `registerUser`: the body, with the schema's defaults filled in, is
      saved as it is, under the required-field check only: no uniqueness
      check on the email and no hashing of the password. */
  function RegisterUser(users: Coll<UserRecord>, body: UserRecord): (r: Result<Coll<UserRecord>, ApiError>)
    ensures r.Err? <==> !Valid(body)
    ensures r.Err? ==> r.error == ValidationFailed
    ensures r.Ok? ==>
      && users.nextId !in users.docs
      && r.value.docs.Keys == users.docs.Keys + {users.nextId}
      && r.value.docs[users.nextId] == body
      && (forall k :: k in users.docs ==> r.value.docs[k] == users.docs[k])
  {
    if !Valid(body) then Err(ValidationFailed) else Ok(Insert(users, body).0)
  }

  /** `getUserByEmail`: the first document with that email, or NotFound. */
  function GetUserByEmail(users: Coll<UserRecord>, email: string): (r: Result<UserRecord, ApiError>)
    ensures r.Err? <==> forall k :: k in users.docs ==> users.docs[k].email != Some(email)
    ensures r.Err? ==> r.error == NotFound
    ensures r.Ok? ==> r.value.email == Some(email) && r.value in users.docs.Values
  {
    match FindOne(users, ByEmail(email))
    case None =>
      assert forall k :: k in users.docs ==> !Matches(ByEmail(email), users.docs[k]);
      Err(NotFound)
    case Some(i) => Ok(users.docs[i])
  }

  /** The fields of an update request the handler looks at. */
  datatype UpdateBody = UpdateBody(
    phone: Option<string>,
    userIsActive: Option<bool>,
    isTourist: Option<bool>,
    isAgency: Option<bool>)

  /** The `updates` object: a phone only when truthy, a flag whenever it
      is defined. */
  function Whitelist(body: UpdateBody): (u: UpdateBody)
    ensures u.phone.Some? <==> Truthy(body.phone)
    ensures u.phone.Some? ==> u.phone == body.phone
    ensures u.userIsActive == body.userIsActive && u.isTourist == body.isTourist && u.isAgency == body.isAgency
  {
    body.(phone := if Truthy(body.phone) then body.phone else None)
  }

  /** Sets every field the updates define. */
  function Apply(u: UserRecord, upd: UpdateBody): UserRecord {
    u.(phone := if upd.phone.Some? then upd.phone else u.phone,
       userIsActive := upd.userIsActive.GetOr(u.userIsActive),
       isTourist := upd.isTourist.GetOr(u.isTourist),
       isAgency := upd.isAgency.GetOr(u.isAgency))
  }

  /** `b` agrees with `a` on every field outside the update whitelist. */
  predicate SameOutsideWhitelist(a: UserRecord, b: UserRecord) {
    b.(phone := a.phone, userIsActive := a.userIsActive, isTourist := a.isTourist, isAgency := a.isAgency) == a
  }

  /** `updateUser`: a whitelisted partial update of the document `id`. */
  function UpdateUser(users: Coll<UserRecord>, id: Id, body: UpdateBody): (r: Result<Coll<UserRecord>, ApiError>)
    ensures r.Err? <==> id !in users.docs
    ensures r.Err? ==> r.error == NotFound
    ensures r.Ok? ==> r.value.docs.Keys == users.docs.Keys
    ensures r.Ok? ==>
      var before := users.docs[id];
      var after := r.value.docs[id];
      && (forall k :: k in users.docs && k != id ==> r.value.docs[k] == users.docs[k])
      && SameOutsideWhitelist(before, after)
      && after.phone == (if Truthy(body.phone) then body.phone else before.phone)
      && after.userIsActive == (if body.userIsActive.Some? then body.userIsActive.value else before.userIsActive)
      && after.isTourist == (if body.isTourist.Some? then body.isTourist.value else before.isTourist)
      && after.isAgency == (if body.isAgency.Some? then body.isAgency.value else before.isAgency)
  {
    if id !in users.docs then Err(NotFound)
    else Ok(Put(users, id, Apply(users.docs[id], Whitelist(body))))
  }

  /** `deleteUser`: removes the document `id`, or reports NotFound. */
  function DeleteUser(users: Coll<UserRecord>, id: Id): Result<Coll<UserRecord>, ApiError>
  {
    DeleteById(users, id)
  }

  /** Sending the same update twice leaves the same directory as once. */
  lemma UpdateUserIdempotent(users: Coll<UserRecord>, id: Id, body: UpdateBody)
    requires UpdateUser(users, id, body).Ok?
    ensures UpdateUser(UpdateUser(users, id, body).value, id, body) == UpdateUser(users, id, body)
  {
    var once := UpdateUser(users, id, body).value;
    var w := Whitelist(body);
    assert Apply(once.docs[id], w) == once.docs[id];
    assert once.docs[id := once.docs[id]] == once.docs;
  }

  /** An update with nothing usable in it changes nothing. */
  lemma EmptyUpdateIsNoop(users: Coll<UserRecord>, id: Id, phone: Option<string>)
    requires id in users.docs
    requires !Truthy(phone)
    ensures UpdateUser(users, id, UpdateBody(phone, None, None, None)) == Ok(users)
  {
    assert Apply(users.docs[id], Whitelist(UpdateBody(phone, None, None, None))) == users.docs[id];
    assert users.docs[id := users.docs[id]] == users.docs;
  }

  lemma UpdateUserPreservesUniqueEmails(users: Coll<UserRecord>, id: Id, body: UpdateBody)
    requires EmailsUnique(users)
    requires UpdateUser(users, id, body).Ok?
    ensures EmailsUnique(UpdateUser(users, id, body).value)
  {
  }

  /** The raw insert can put a second document under an email already on
      file: it does not keep emails unique. */
  lemma RegisterUserCanDuplicateEmail(u: UserRecord)
    requires Valid(u)
    ensures
      var once := RegisterUser(Empty(), u).value;
      && EmailsUnique(once)
      && RegisterUser(once, u).Ok?
      && !EmailsUnique(RegisterUser(once, u).value)
  {
    var once := RegisterUser(Empty(), u).value;
    var twice := RegisterUser(once, u).value;
  }

  /** A body inserted for an email not yet on file reads back by that
      email, emails stay unique, and deleting the new id restores the
      earlier documents. */
  lemma RegisterThenGetThenDelete(users: Coll<UserRecord>, body: UserRecord)
    requires EmailsUnique(users)
    requires Valid(body)
    requires FindOne(users, ByEmail(body.email.value)).None?
    ensures
      var after := RegisterUser(users, body).value;
      && EmailsUnique(after)
      && GetUserByEmail(after, body.email.value) == Ok(body)
      && DeleteUser(after, users.nextId).Ok?
      && DeleteUser(after, users.nextId).value.docs == users.docs
  {
    var after := RegisterUser(users, body).value;
    var id := users.nextId;
    forall i, j | i in after.docs && j in after.docs && i != j && after.docs[i].email.Some?
      ensures after.docs[i].email != after.docs[j].email
    {
      if i == id {
        assert !Matches(ByEmail(body.email.value), users.docs[j]);
      } else if j == id {
        assert !Matches(ByEmail(body.email.value), users.docs[i]);
      }
    }
    FindOneUnique(after, body.email.value, id);
    assert DeleteUser(after, id).value.docs == users.docs;
  }
}

=== FILE: UserModel.dfy ===
/** The user document of src/models/userModels/generalInfoUser.js, its
    defaults and its required-field check, the side documents for agencies
    and tourists, and the `findOne` lookups the handlers run on users. */
module UserModel {
  import opened Base
  import opened Store

  /** A point in time, as milliseconds since the epoch. */
  type Date = int

  /** One user document. Optional fields may be missing from the stored
      document; the four flags always hold a value thanks to their defaults. */
  datatype UserRecord = UserRecord(
    names: Option<string>,
    lastNames: Option<string>,
    userIsActive: bool,
    email: Option<string>,
    phone: Option<string>,
    confirmationCode: Option<string>,
    isConfirmed: bool,
    isTourist: bool,
    isAgency: bool,
    location: Option<string>,
    documentType: Option<Id>,
    documentNumber: Option<string>,
    documentIssueDate: Option<Date>,
    birthDate: Option<Date>,
    isPoliticsTrue: Option<bool>,
    isTtoDtosTrue: Option<bool>,
    password: Option<string>)

  /** A document built from nothing but the schema's defaults. */
  function Blank(): (u: UserRecord)
    ensures !u.userIsActive && !u.isConfirmed
    ensures !u.isTourist && !u.isAgency
    ensures u.email.None? && u.confirmationCode.None? && u.password.None?
  {
    UserRecord(None, None, false, None, None, None, false, false, false,
               None, None, None, None, None, None, None, None)
  }

  /** The schema's required-field check, run by `save()`. The two role
      flags are required too, but their defaults always satisfy that. */
  predicate Valid(u: UserRecord) {
    && ProfileComplete(u)
    && Truthy(u.confirmationCode)
    && Truthy(u.location)
  }

  /** The required fields other than the confirmation code and the
      location: the ones a registration request supplies. */
  predicate ProfileComplete(u: UserRecord) {
    && Truthy(u.names)
    && Truthy(u.lastNames)
    && Truthy(u.email)
    && Truthy(u.phone)
    && Truthy(u.documentNumber)
    && u.documentIssueDate.Some?
    && u.birthDate.Some?
    && u.isPoliticsTrue.Some?
    && u.isTtoDtosTrue.Some?
    && Truthy(u.password)
  }

  /** Agency side document (src/models/userModels/agency.js). */
  datatype AgencyRecord = AgencyRecord(
    agencyName: Option<string>,
    companyLogo: Option<string>,
    currentLocation: Option<Id>,
    documentType: Option<Id>,
    documentInfo: Option<Id>)

  /** The agency schema requires a name (and a creation date, which the
      caller always sets from the clock). */
  predicate AgencyValid(a: AgencyRecord) {
    Truthy(a.agencyName)
  }

  /** Tourist side document (src/models/userModels/tourist.js): only an
      optional profile image; any other field given to it is dropped. */
  datatype TouristRecord = TouristRecord(imageProfile: Option<string>)

  /** The `email` of a parsed JSON request body. A string is matched by
      equality; the object `{"$ne": null}` is read by the schema library as
      a query operator that matches any document holding an email. */
  datatype EmailInput =
    | Address(address: string)
    | AnyEmail

  /** The `code` of a parsed JSON request body. A string is matched by
      equality. An object is read by the schema library as a query operator
      on the field: `{"$ne": null}` matches any stored code, and
      `{"$exists": false}` matches a document without one. */
  datatype CodeInput =
    | Text(code: string)
    | NotNull
    | Missing

  predicate EmailMatches(e: EmailInput, u: UserRecord) {
    match e
    case Address(a) => u.email == Some(a)
    case AnyEmail => u.email.Some?
  }

  predicate CodeMatches(c: CodeInput, u: UserRecord) {
    match c
    case Text(t) => u.confirmationCode == Some(t)
    case NotNull => u.confirmationCode.Some?
    case Missing => u.confirmationCode.None?
  }

  /** The `findOne` filters the handlers use on the user collection. The
      first two are the ones string inputs give; the last two are the ones
      request bodies can give. */
  datatype Filter =
    | ByEmail(email: string)
    | ByEmailAndCode(email: string, code: string)
    | ByEmailInput(emailInput: EmailInput)
    | ByInputs(emailInput: EmailInput, codeInput: CodeInput)

  predicate Matches(f: Filter, u: UserRecord) {
    match f
    case ByEmail(e) => u.email == Some(e)
    case ByEmailAndCode(e, c) => u.email == Some(e) && u.confirmationCode == Some(c)
    case ByEmailInput(e) => EmailMatches(e, u)
    case ByInputs(e, c) => EmailMatches(e, u) && CodeMatches(c, u)
  }

  /** The filter `{ email }` for a submitted email. */
  function EmailFilter(email: EmailInput): Filter {
    match email
    case Address(a) => ByEmail(a)
    case AnyEmail => ByEmailInput(AnyEmail)
  }

  /** The filter `{ email, confirmationCode: code }` for a submitted pair. */
  function CodeFilter(email: EmailInput, code: CodeInput): Filter {
    if email.Address? && code.Text? then ByEmailAndCode(email.address, code.code)
    else ByInputs(email, code)
  }

  /** The first document, in id order from `from`, that the filter matches. */
  function FindFrom(users: Coll<UserRecord>, f: Filter, from: Id): (r: Option<Id>)
    decreases users.nextId - from
    ensures r.Some? ==> from <= r.value && r.value in users.docs && Matches(f, users.docs[r.value])
    ensures r.Some? ==> forall j :: from <= j < r.value && j in users.docs ==> !Matches(f, users.docs[j])
    ensures r.None? ==> forall j :: from <= j && j in users.docs ==> !Matches(f, users.docs[j])
  {
    if from >= users.nextId then None
    else if from in users.docs && Matches(f, users.docs[from]) then Some(from)
    else FindFrom(users, f, from + 1)
  }

  /** `findOne(filter)`: the earliest-inserted matching document, if any. */
  function FindOne(users: Coll<UserRecord>, f: Filter): (r: Option<Id>)
    ensures r.Some? ==> r.value in users.docs && Matches(f, users.docs[r.value])
    ensures r.Some? ==> forall j :: j in users.docs && j < r.value ==> !Matches(f, users.docs[j])
    ensures r.None? <==> forall j :: j in users.docs ==> !Matches(f, users.docs[j])
  {
    FindFrom(users, f, 0)
  }

  /** No two documents carry the same email. The schema does not enforce
      this; the account lifecycle keeps it, the raw insert does not. */
  ghost predicate EmailsUnique(users: Coll<UserRecord>) {
    forall i, j :: i in users.docs && j in users.docs && i != j && users.docs[i].email.Some? ==>
      users.docs[i].email != users.docs[j].email
  }

  /** Under unique emails, a document with email `e` is the one `findOne`
      by `e` returns. */
  lemma FindOneUnique(users: Coll<UserRecord>, e: string, i: Id)
    requires EmailsUnique(users)
    requires i in users.docs && users.docs[i].email == Some(e)
    ensures FindOne(users, ByEmail(e)) == Some(i)
  {
    var r := FindOne(users, ByEmail(e));
    assert r.Some? by {
      assert Matches(ByEmail(e), users.docs[i]);
    }
  }

  /** Each of the twelve required fields is needed on its own: a valid
      document that loses any one of them fails the check. */
  lemma EveryRequiredFieldIsNeeded(u: UserRecord)
    requires Valid(u)
    ensures !Valid(u.(names := None)) && !Valid(u.(lastNames := None))
    ensures !Valid(u.(email := None)) && !Valid(u.(phone := None))
    ensures !Valid(u.(confirmationCode := None)) && !Valid(u.(location := None))
    ensures !Valid(u.(documentNumber := None)) && !Valid(u.(documentIssueDate := None))
    ensures !Valid(u.(birthDate := None)) && !Valid(u.(password := None))
    ensures !Valid(u.(isPoliticsTrue := None)) && !Valid(u.(isTtoDtosTrue := None))
    ensures Valid(u.(documentType := None))
  {
  }

  /** A document of defaults alone is not a valid user. */
  lemma BlankIsInvalid()
    ensures !Valid(Blank())
  {
  }

  /** Clearing the code of any document makes it fail the required-field
      check, which is why the clearing verify skips validation. */
  lemma ClearedCodeIsInvalid(u: UserRecord)
    ensures !Valid(u.(confirmationCode := None))
  {
  }

  /** The consent flags must be present, but either value passes. */
  lemma ConsentValueIsFree(u: UserRecord, politics: bool, dataProcessing: bool)
    requires Valid(u)
    ensures Valid(u.(isPoliticsTrue := Some(politics), isTtoDtosTrue := Some(dataProcessing)))
    ensures !Valid(u.(isPoliticsTrue := None)) && !Valid(u.(isTtoDtosTrue := None))
  {
  }

  /** The role flags are independent: every combination passes the check. */
  lemma RoleFlagsIndependent(u: UserRecord, tourist: bool, agency: bool)
    requires Valid(u)
    ensures Valid(u.(isTourist := tourist, isAgency := agency))
  {
  }
}

=== FILE: UserVerify.dfy ===
/** src/controllers/userVerify.js: issuing a confirmation code for an
    email (upsert, then mail it) and verifying a submitted code (match,
    confirm, clear). The mail transport's answer is a parameter. */
module UserVerify {
  import opened Base
  import opened Store
  import opened UserModel
  import Helpers

  /** What the mail transport answered for the confirmation mail. */
  datatype Delivery = Delivered | DeliveryError

  /** `b` is `a` with at most its confirmation code changed. */
  predicate SameButCode(a: UserRecord, b: UserRecord) {
    b.(confirmationCode := a.confirmationCode) == a
  }

  /** `b` is `a` with at most the confirmation state (flag and code) changed. */
  predicate SameButConfirmation(a: UserRecord, b: UserRecord) {
    b.(isConfirmed := a.isConfirmed, confirmationCode := a.confirmationCode) == a
  }

  /** Every document of `before` other than `id` is still there, unchanged. */
  ghost predicate OthersUnchanged(before: Coll<UserRecord>, after: Coll<UserRecord>, id: Id) {
    forall k :: k in before.docs && k != id ==> k in after.docs && after.docs[k] == before.docs[k]
  }

  /** The upsert and the mail of `sendConfirmationCodeEmail` for an already
      generated code. The code is stored before the mail is attempted, so a
      failed delivery still leaves it in place. */
  function IssueCode(users: Coll<UserRecord>, email: string, code: string, delivery: Delivery)
    : (r: Step<Coll<UserRecord>>)
    // the first document for the email now carries the new code
    ensures FindOne(r.state, ByEmail(email)).Some?
    ensures r.state.docs[FindOne(r.state, ByEmail(email)).value].confirmationCode == Some(code)
    // an existing document changes in its code only; nothing else changes
    ensures FindOne(users, ByEmail(email)).Some? ==>
      var i := FindOne(users, ByEmail(email)).value;
      && r.state.docs.Keys == users.docs.Keys
      && SameButCode(users.docs[i], r.state.docs[i])
      && OthersUnchanged(users, r.state, i)
    // otherwise one new document holds just the email, the code and the defaults
    ensures FindOne(users, ByEmail(email)).None? ==>
      && r.state.docs.Keys == users.docs.Keys + {users.nextId}
      && r.state.docs[users.nextId] == Blank().(email := Some(email), confirmationCode := Some(code))
      && OthersUnchanged(users, r.state, users.nextId)
    // the caller hears of a failed delivery, and only of that
    ensures r.outcome == (if delivery == Delivered then Pass else Fail(DeliveryFailed))
  {
    var stored :=
      match FindOne(users, ByEmail(email))
      case Some(i) => Put(users, i, users.docs[i].(confirmationCode := Some(code)))
      case None => Insert(users, Blank().(email := Some(email), confirmationCode := Some(code))).0;
    Step(stored, if delivery == Delivered then Pass else Fail(DeliveryFailed))
  }

  /** The upsert of `sendConfirmationCodeEmail` as written: the submitted
      email is the filter as it arrives. `{"$ne": null}` selects the first
      document holding any email and replaces its code; with no such
      document the upsert inserts one holding the code and no email, since
      an operator gives the new document no field. */
  function IssueCodeAsWritten(users: Coll<UserRecord>, email: EmailInput, code: string, delivery: Delivery)
    : (r: Step<Coll<UserRecord>>)
    ensures email.Address? ==> r == IssueCode(users, email.address, code, delivery)
    ensures email.AnyEmail? && FindOne(users, ByEmailInput(AnyEmail)).Some? ==>
      var i := FindOne(users, ByEmailInput(AnyEmail)).value;
      && r.state.docs.Keys == users.docs.Keys
      && r.state.docs[i].confirmationCode == Some(code)
      && SameButCode(users.docs[i], r.state.docs[i])
      && OthersUnchanged(users, r.state, i)
    ensures email.AnyEmail? && FindOne(users, ByEmailInput(AnyEmail)).None? ==>
      && r.state.docs.Keys == users.docs.Keys + {users.nextId}
      && r.state.docs[users.nextId] == Blank().(confirmationCode := Some(code))
      && OthersUnchanged(users, r.state, users.nextId)
    ensures r.outcome == (if delivery == Delivered then Pass else Fail(DeliveryFailed))
  {
    match email
    case Address(a) => IssueCode(users, a, code, delivery)
    case AnyEmail =>
      var stored :=
        match FindOne(users, ByEmailInput(AnyEmail))
        case Some(i) => Put(users, i, users.docs[i].(confirmationCode := Some(code)))
        case None => Insert(users, Blank().(confirmationCode := Some(code))).0;
      Step(stored, if delivery == Delivered then Pass else Fail(DeliveryFailed))
  }

  /** `sendConfirmationCodeEmail`: generate a code from the draws, then
      upsert and mail it. */
  method SendConfirmationCodeEmail(users: Coll<UserRecord>, email: EmailInput, draws: seq<int>, delivery: Delivery)
    returns (code: string, r: Step<Coll<UserRecord>>)
    requires Helpers.ValidDraws(draws)
    ensures Helpers.IsCode(code) && code == Helpers.CodeFromDraws(draws)
    ensures r == IssueCodeAsWritten(users, email, code, delivery)
    ensures email.Address? ==>
      && FindOne(r.state, ByEmail(email.address)).Some?
      && r.state.docs[FindOne(r.state, ByEmail(email.address)).value].confirmationCode == Some(code)
    ensures r.outcome.Pass? <==> delivery == Delivered
  {
    code := Helpers.GenerateConfirmationCode(draws);
    r := IssueCodeAsWritten(users, email, code, delivery);
  }

  /** The confirmation of a matched document `i`: confirmed, its code
      cleared, and saved without the required-field check. */
  function Confirm(users: Coll<UserRecord>, i: Id): (r: Coll<UserRecord>)
    requires i in users.docs
    ensures r.docs.Keys == users.docs.Keys
    ensures r.docs[i].isConfirmed && r.docs[i].confirmationCode.None?
    ensures SameButConfirmation(users.docs[i], r.docs[i])
    ensures OthersUnchanged(users, r, i)
  {
    Put(users, i, users.docs[i].(isConfirmed := true, confirmationCode := None))
  }

  /** `verifyConfirmationCodeEmail` for a code submitted as a string: the
      (email, code) pair must match a document exactly, and that document
      is confirmed. */
  function Verify(users: Coll<UserRecord>, email: string, code: string)
    : (r: Result<Coll<UserRecord>, ApiError>)
    ensures r.Err? <==> FindOne(users, ByEmailAndCode(email, code)).None?
    ensures r.Err? ==> r.error == InvalidCode
    ensures r.Ok? ==>
      var i := FindOne(users, ByEmailAndCode(email, code)).value;
      && r.value.docs.Keys == users.docs.Keys
      && r.value.docs[i].isConfirmed
      && r.value.docs[i].confirmationCode.None?
      && SameButConfirmation(users.docs[i], r.value.docs[i])
      && OthersUnchanged(users, r.value, i)
  {
    match FindOne(users, ByEmailAndCode(email, code))
    case None => Err(InvalidCode)
    case Some(i) => Ok(Confirm(users, i))
  }

  /** `verifyConfirmationCodeEmail` as written: the submitted email and
      code go into the filter as they arrive, so operator objects select a
      document without its email or its code being known. Strings behave as
      in `Verify`. */
  function VerifyAsWritten(users: Coll<UserRecord>, email: EmailInput, code: CodeInput)
    : (r: Result<Coll<UserRecord>, ApiError>)
    ensures r.Err? <==> FindOne(users, CodeFilter(email, code)).None?
    ensures r.Err? ==> r.error == InvalidCode
    ensures r.Ok? ==>
      var i := FindOne(users, CodeFilter(email, code)).value;
      && EmailMatches(email, users.docs[i])
      && CodeMatches(code, users.docs[i])
      && r.value.docs.Keys == users.docs.Keys
      && r.value.docs[i].isConfirmed
      && r.value.docs[i].confirmationCode.None?
      && SameButConfirmation(users.docs[i], r.value.docs[i])
      && OthersUnchanged(users, r.value, i)
    ensures email.Address? && code.Text? ==> r == Verify(users, email.address, code.code)
  {
    match FindOne(users, CodeFilter(email, code))
    case None => Err(InvalidCode)
    case Some(i) => Ok(Confirm(users, i))
  }

  /** The handler with the checks it evidently lacks: an email or a code
      that is not a string is refused before the lookup. */
  function VerifyChecked(users: Coll<UserRecord>, email: EmailInput, code: CodeInput)
    : (r: Result<Coll<UserRecord>, ApiError>)
    ensures !email.Address? || !code.Text? ==> r == Err(InvalidCode)
    ensures email.Address? && code.Text? ==> r == VerifyAsWritten(users, email, code)
  {
    match (email, code)
    case (Address(a), Text(c)) => Verify(users, a, c)
    case _ => Err(InvalidCode)
  }

  lemma IssuePreservesUniqueEmails(users: Coll<UserRecord>, email: string, code: string, delivery: Delivery)
    requires EmailsUnique(users)
    ensures EmailsUnique(IssueCode(users, email, code, delivery).state)
  {
  }

  lemma VerifyPreservesUniqueEmails(users: Coll<UserRecord>, email: string, code: string)
    requires EmailsUnique(users)
    requires Verify(users, email, code).Ok?
    ensures EmailsUnique(Verify(users, email, code).value)
  {
  }

  /** Under unique emails, the only code `Verify` accepts for an email is
      the one stored on that email's document. */
  lemma VerifyAcceptsOnlyStoredCode(users: Coll<UserRecord>, email: string, code: string)
    requires EmailsUnique(users)
    requires FindOne(users, ByEmail(email)).Some?
    ensures Verify(users, email, code).Ok? <==>
      users.docs[FindOne(users, ByEmail(email)).value].confirmationCode == Some(code)
  {
    var i := FindOne(users, ByEmail(email)).value;
    if users.docs[i].confirmationCode == Some(code) {
      assert Matches(ByEmailAndCode(email, code), users.docs[i]);
    }
  }

  /** A code just issued is accepted, whether or not its mail went out. */
  lemma IssuedCodeVerifies(users: Coll<UserRecord>, email: string, code: string, delivery: Delivery)
    ensures Verify(IssueCode(users, email, code, delivery).state, email, code).Ok?
  {
    var s := IssueCode(users, email, code, delivery).state;
    var i := FindOne(s, ByEmail(email)).value;
    assert Matches(ByEmailAndCode(email, code), s.docs[i]);
  }

  /** Under unique emails, a code other than the one just issued is refused. */
  lemma OtherCodeFails(users: Coll<UserRecord>, email: string, code: string, other: string, delivery: Delivery)
    requires EmailsUnique(users)
    requires other != code
    ensures Verify(IssueCode(users, email, code, delivery).state, email, other) == Err(InvalidCode)
  {
    var s := IssueCode(users, email, code, delivery).state;
    IssuePreservesUniqueEmails(users, email, code, delivery);
    VerifyAcceptsOnlyStoredCode(s, email, other);
  }

  /** Issuing twice leaves only the second code: the first is then refused
      unless the two codes happen to be equal. */
  lemma LastCodeWins(users: Coll<UserRecord>, email: string, first: string, second: string,
                     d1: Delivery, d2: Delivery)
    requires EmailsUnique(users)
    ensures
      var s := IssueCode(IssueCode(users, email, first, d1).state, email, second, d2).state;
      Verify(s, email, first).Ok? <==> first == second
  {
    var s1 := IssueCode(users, email, first, d1).state;
    IssuePreservesUniqueEmails(users, email, first, d1);
    if first == second {
      IssuedCodeVerifies(s1, email, second, d2);
    } else {
      OtherCodeFails(s1, email, second, first, d2);
    }
  }

  /** Verification is one-shot: after a success the same pair is refused. */
  lemma VerifyIsOneShot(users: Coll<UserRecord>, email: string, code: string)
    requires EmailsUnique(users)
    requires Verify(users, email, code).Ok?
    ensures Verify(Verify(users, email, code).value, email, code) == Err(InvalidCode)
  {
    var i := FindOne(users, ByEmailAndCode(email, code)).value;
    var s := Verify(users, email, code).value;
    VerifyPreservesUniqueEmails(users, email, code);
    FindOneUnique(s, email, i);
    VerifyAcceptsOnlyStoredCode(s, email, code);
  }

  /** As written, a code of `{"$ne": null}` confirms the document of an
      email that has been sent a code, whatever that code is; so does an
      email of `{"$ne": null}`, with or without the code. */
  lemma OperatorCodeConfirmsWithoutCode(users: Coll<UserRecord>, email: string, code: string, delivery: Delivery)
    ensures
      var issued := IssueCode(users, email, code, delivery).state;
      && VerifyAsWritten(issued, Address(email), NotNull).Ok?
      && VerifyAsWritten(issued, AnyEmail, NotNull).Ok?
      && VerifyAsWritten(issued, AnyEmail, Text(code)).Ok?
      && Verify(issued, email, code).Ok?
  {
    var s := IssueCode(users, email, code, delivery).state;
    var i := FindOne(s, ByEmail(email)).value;
    assert Matches(ByInputs(Address(email), NotNull), s.docs[i]);
    assert Matches(ByInputs(AnyEmail, NotNull), s.docs[i]);
    assert Matches(ByInputs(AnyEmail, Text(code)), s.docs[i]);
    IssuedCodeVerifies(users, email, code, delivery);
  }

  /** As written, a code alone confirms the account holding it: with the
      email `{"$ne": null}`, a code no other document holds confirms its
      holder, whose email the request never names. */
  lemma CodeAloneConfirmsItsHolder(users: Coll<UserRecord>, code: string, i: Id)
    requires i in users.docs && users.docs[i].email.Some?
    requires users.docs[i].confirmationCode == Some(code)
    requires forall j :: j in users.docs && j != i ==> users.docs[j].confirmationCode != Some(code)
    ensures VerifyAsWritten(users, AnyEmail, Text(code)).Ok?
    ensures VerifyAsWritten(users, AnyEmail, Text(code)).value.docs[i].isConfirmed
  {
    assert Matches(ByInputs(AnyEmail, Text(code)), users.docs[i]);
  }

  /** As written, a send-code request with the email `{"$ne": null}`
      replaces the code of the first account holding an email: under unique
      emails, that account's earlier code, like any code but the new one,
      then fails for it. */
  lemma AnyEmailReplacesFirstAccountsCode(users: Coll<UserRecord>, code: string, other: string, delivery: Delivery)
    requires EmailsUnique(users)
    requires FindOne(users, ByEmailInput(AnyEmail)).Some?
    requires other != code
    ensures
      var i := FindOne(users, ByEmailInput(AnyEmail)).value;
      var after := IssueCodeAsWritten(users, AnyEmail, code, delivery).state;
      && after.docs[i].email == users.docs[i].email
      && after.docs[i].confirmationCode == Some(code)
      && Verify(after, users.docs[i].email.value, other) == Err(InvalidCode)
  {
    var i := FindOne(users, ByEmailInput(AnyEmail)).value;
    var after := IssueCodeAsWritten(users, AnyEmail, code, delivery).state;
    assert forall k :: k in after.docs ==> after.docs[k].email == users.docs[k].email;
    assert EmailsUnique(after);
    VerifyAcceptsOnlyStoredCode(after, users.docs[i].email.value, other);
  }

  /** As written, verification is not one-shot: after a success,
      `{"$exists": false}` confirms a document without a code again. For a
      string email under unique emails it is the document just confirmed;
      with `{"$ne": null}` as the email it may be an earlier one. */
  lemma MissingCodeReconfirms(users: Coll<UserRecord>, email: EmailInput, code: CodeInput)
    requires VerifyAsWritten(users, email, code).Ok?
    ensures VerifyAsWritten(VerifyAsWritten(users, email, code).value, email, Missing).Ok?
    ensures EmailsUnique(users) && email.Address? ==>
      FindOne(VerifyAsWritten(users, email, code).value, CodeFilter(email, Missing))
        == FindOne(users, CodeFilter(email, code))
  {
    var i := FindOne(users, CodeFilter(email, code)).value;
    var s := VerifyAsWritten(users, email, code).value;
    assert Matches(ByInputs(email, Missing), s.docs[i]);
    if EmailsUnique(users) && email.Address? {
      var j := FindOne(s, CodeFilter(email, Missing)).value;
      assert users.docs[j].email == s.docs[j].email;
    }
  }

  /** With `{"$ne": null}` as the email, the `{"$exists": false}` re-check
      can confirm another account: here the code confirms document 1, and
      the re-check then selects the earlier document 0. */
  lemma MissingCodeCanPickAnotherAccount()
    ensures
      var users: Coll<UserRecord> := Collection(map[
        0 := Blank().(email := Some("a@x.com"), isConfirmed := true),
        1 := Blank().(email := Some("b@x.com"), confirmationCode := Some("123456"))], 2);
      && FindOne(users, CodeFilter(AnyEmail, Text("123456"))) == Some(1)
      && VerifyAsWritten(users, AnyEmail, Text("123456")).Ok?
      && FindOne(VerifyAsWritten(users, AnyEmail, Text("123456")).value, CodeFilter(AnyEmail, Missing)) == Some(0)
  {
    var users: Coll<UserRecord> := Collection(map[
      0 := Blank().(email := Some("a@x.com"), isConfirmed := true),
      1 := Blank().(email := Some("b@x.com"), confirmationCode := Some("123456"))], 2);
    assert !Matches(CodeFilter(AnyEmail, Text("123456")), users.docs[0]);
    assert Matches(CodeFilter(AnyEmail, Text("123456")), users.docs[1]);
    var s := VerifyAsWritten(users, AnyEmail, Text("123456")).value;
    assert Matches(CodeFilter(AnyEmail, Missing), s.docs[0]);
  }

  /** With the checks, under unique emails, a submission confirms exactly
      when it names an email on file, as a string, together with the code
      stored on that email's document, as a string. */
  lemma VerifyCheckedAcceptsOnlyStoredCode(users: Coll<UserRecord>, email: EmailInput, code: CodeInput)
    requires EmailsUnique(users)
    ensures VerifyChecked(users, email, code).Ok? <==>
      && email.Address?
      && FindOne(users, ByEmail(email.address)).Some?
      && var stored := users.docs[FindOne(users, ByEmail(email.address)).value].confirmationCode;
         stored.Some? && code == Text(stored.value)
  {
    if email.Address? && code.Text? {
      if FindOne(users, ByEmail(email.address)).Some? {
        VerifyAcceptsOnlyStoredCode(users, email.address, code.code);
      }
    }
  }
}
